=== FILE: README.md ===
# captchago, modelled in Dafny

captchago is a Go client library for captcha-solving services. A caller picks
a service by name and gets a `Solver`. The solver offers one set of calls:
balance, reCAPTCHA v2 and v3, hCaptcha and FunCaptcha. Each call is forwarded to
one of two protocol adapters:

- The task-based JSON adapter (`acmethods.go`) serves anti-captcha and the
  services that copy its API: anycaptcha, capmonster and capsolver. It posts a
  task to `createTask`, then polls `getTaskResult` until the task is ready.
- The legacy query adapter (`tcmethods.go`) serves 2captcha. It submits the
  parameters to `in.php` in the query string, then polls `res.php`. Answers come
  back as plain text: `OK` followed by a bar and the value, or an error code.

The model is functional. JSON values are a `Value` union and an `Object` is a
map from keys to values. The network is an oracle. A `World` holds:

- the reply a submission request gets, as a function of the request, so the URL
  and payload a call sends stay observable;
- the successive poll rounds, as a finite sequence. Each round's reply is a
  function of the request that round sends, so a poll that asks about the wrong
  task could get a different answer;
- the elapsed time;
- `strconv.ParseFloat`.

Each endless poll loop is a recursion over the replies the rounds give to the
poll request for the created task. The loop's outcome
is the outcome of the first reply that ends it. `Polling` means the replies ran
out while the program would still be waiting.

Modules follow the source files:

- `Wrappers`: Option and Result.
- `StringOps`: the slice of Go's `strings` and `strconv` that the library uses.
- `Json`: the decoded JSON values.
- `Common`: `common.go`, plus the reply and request shapes and the base-URL rule
  that both adapters copy.
- `Proxies`: `proxy.go`.
- `Captchas`: `captchas.go`.
- `AntiCaptcha`: `acmethods.go`.
- `TwoCaptcha`: `tcmethods.go`.
- `Solvers`: `solver.go`.

Where the services' documented behaviour, or the intent the code's own comments
state, differs from what the code does, the model follows the code:

- The address test in `domain` is commented as detecting an IP address, but it
  counts exactly four dots. A dotted quad such as
  `1.2.3.4` has three, so it gets `https://`
  (`Common.DottedQuadIsHost`).
- A forced domain that already carries a scheme is not passed through. Its
  colon makes it look like an address, so it gets a second `http://`
  (`Common.SchemeIsDoubled`).
- The task-based adapter reads the solution text only from
  `gRecaptchaResponse`, then `token`. No Kasada fields are read, and there is
  no Kasada or Cloudflare capability in either adapter.
- The task-based adapter always identifies itself with a `softId` field, never `appId`. The legacy adapter sends `soft_id` instead.
- A task id is always an integer. The task-based adapter truncates the JSON
  number it receives, and the legacy adapter parses decimal text.
- A transport failure while polling is retried by the task-based loop, but it
  ends the legacy loop.
- The hCaptcha enterprise `endpoint` key carries the `APIEndpoint` value, not
  the `Endpoint` value.
- `strings.Split(body, "|")[1]` is the text between the first and the second
  bar, not everything after the first bar.
- A `cost` value that is not a string is not turned into a string. The Go code
  asserts that it is a string, so the model requires it (see Left out).

## Model

| member | source | states |
|---|---|---|
| Common.Domain | acmethods.go:11-25 | A non-empty forced domain replaces the preferred one. The scheme is `http://` exactly when the host holds a colon or exactly four dots, and `https://` otherwise. |
| Common.DomainOfHost | tcmethods.go:12-25 | A host without a colon and with other than four dots is served over https. |
| Common.DomainOfAddress | tcmethods.go:12-25 | A host with a colon or four dots is served over plain http. |
| Common.HostName | acmethods.go:17-22 | A host spelled as dot-free labels is served over https unless it has exactly five labels. |
| Common.DottedQuadIsHost | acmethods.go:17-22 | A dotted quad such as 1.2.3.4 has three dots, so it is not taken for an IP address and gets https. |
| Common.HostWithPortIsAddress | acmethods.go:17-19 | A forced host written with a port is taken for an address and gets http. |
| Common.SchemeIsDoubled | acmethods.go:13-19 | A forced domain written with its http or https scheme gets a second `http://` in front. |
| Common.CookiesToString | common.go:13-25 | No cookies give the empty string. Otherwise the result is the `k=v` entries separated by a semicolon and a space, with no separator after the last entry. |
| Common.CookiesLength | common.go:16-22 | The cookie header's length is the sum of each key and value length plus one, plus two per separator. |
| Common.WeightOrderFree | common.go:16-19 | The summed key and value lengths of the cookies are the same in any order that visits the same cookies. |
| Common.CookiesLengthOrderFree | common.go:13-25 | Two orders in which map iteration may visit the same cookies give headers of the same length. |
| Common.Render | common.go:59-71 | A string value is rendered as itself and an int in decimal that parses back to the int. Any value that is not a string, int or float renders as the empty string. |
| Common.QueryString | common.go:55-79 | A nil or empty parameter map gives the empty string. Otherwise the result is a question mark followed by the escaped `k=v` pairs, separated by ampersands, with none after the last pair. |
| Proxies.NewProxy | proxy.go:15-27 | A proxy is built exactly when the trimmed, lower-cased type is http, https, socks4 or socks5. It stores that normalised type, and the address, port and login as given. |
| Proxies.NewProxyTypeIsCanonical | proxy.go:15-26 | The stored type is one of the four known types and is already normal: rebuilding a proxy from it yields the same proxy. |
| Proxies.NewProxyIgnoresCaseAndPadding | proxy.go:16-17 | Upper-casing the type, or surrounding it with white space, does not change what NewProxy returns. |
| Proxies.LogonString | proxy.go:37-43 | A nil logon renders as the empty string. A logon renders as the user, a colon, the password and an at sign. |
| Proxies.ProxyString | proxy.go:29-35 | A nil proxy renders as the empty string. A proxy renders as its logon, its address, a colon and its port in decimal. |
| Proxies.ProxyStringReadsBack | proxy.go:34 | The rendering starts with the logon, and the text after its last colon parses back to the port. |
| Captchas.GetBalance | captchas.go:16-21 | A missing balance capability gives the fixed "service does not support getBalance" error. Otherwise the result is exactly the backend call's result. |
| Captchas.RecaptchaV2 | captchas.go:24-29 | A missing reCAPTCHA v2 capability gives its fixed unsupported error. Otherwise the result is the delegate's result unchanged. |
| Captchas.RecaptchaV3 | captchas.go:31-36 | A missing reCAPTCHA v3 capability gives its fixed unsupported error. Otherwise the result is the delegate's result unchanged. |
| Captchas.HCaptcha | captchas.go:38-43 | A missing hCaptcha capability gives its fixed unsupported error. Otherwise the result is the delegate's result unchanged. |
| Captchas.FunCaptcha | captchas.go:45-50 | A missing FunCaptcha capability gives its fixed unsupported error. Otherwise the result is the delegate's result unchanged. |
| Captchas.UnsupportedTouchesNothing | captchas.go:24-27 | A missing capability fails with an unsupported error whatever the network would answer, so nothing is sent. |
| Captchas.Settle | acmethods.go:131-138 | A terminal poll step settles on its solution or its error. |
| AntiCaptcha.SoftId | acmethods.go:35-43 | A softId is sent exactly when the domain names one of the four known backends. It is 59 for a capmonster domain that does not also name anti-captcha, and 1029 for every other match. |
| AntiCaptcha.AntiCaptchaDomainSoftId | acmethods.go:35-36 | A domain containing anti-captcha.com identifies as 1029, whatever else it contains. |
| AntiCaptcha.CapMonsterDomainSoftId | acmethods.go:35-38 | A capmonster.cloud domain whose surrounding text has no hyphen cannot name anti-captcha, so it identifies as 59. |
| AntiCaptcha.LaterBackendsSoftId | acmethods.go:35-42 | An api.capsolver.com domain whose surrounding text has no letter n, and an api.anycaptcha.com domain whose surrounding text has no letter e, cannot name capmonster, so each identifies as 1029. |
| AntiCaptcha.CreateTaskRequest | acmethods.go:28-45 | The request goes to the resolved domain's createTask path. It always carries the API key as clientKey and the task. It carries softId exactly when the domain names a known backend, and no other key. |
| AntiCaptcha.TruncateToInt | acmethods.go:60 | Converting a float to an int drops its fraction, rounding toward zero. |
| AntiCaptcha.ParseCreateTask | acmethods.go:45-60 | A transport error is passed on. A non-null errorDescription is the error, verbatim, before the id is looked at. A missing taskId gives "no taskId". Otherwise the result is the truncated id, and success happens exactly then. |
| AntiCaptcha.CreatedIdReadsBack | acmethods.go:55-60 | A whole-number id sent back as a JSON number reads back as that id. |
| AntiCaptcha.ErrorDescriptionWins | acmethods.go:50-53 | A reply with an error description fails with that text, even when it also carries an id. |
| AntiCaptcha.SolutionText | acmethods.go:103-108 | The text comes from gRecaptchaResponse when that is non-nil, and from token otherwise. |
| AntiCaptcha.OptionalString | acmethods.go:118-129 | An absent or null ip or cost reads as the empty string. |
| AntiCaptcha.ReadyStep | acmethods.go:97-136 | A missing solution gives "no solution", and no text gives "no solution text". The loop finishes exactly when there is text. The solution then carries the polled task id, the chosen text, and the ip and cost defaulting to the empty string. |
| AntiCaptcha.PollStep | acmethods.go:79-139 | The loop continues exactly on a transport error or on status "processing" without error. A non-null errorDescription ends it with that text, whatever the status. "ready" reads the solution. Any other status gives "unknown status". |
| AntiCaptcha.PollRequest | acmethods.go:72-79 | Each poll posts to the resolved domain's getTaskResult path exactly two keys: the API key as clientKey and the task id as taskId. |
| AntiCaptcha.PollsAskForCreatedTask | acmethods.go:72-79 | Solve reads each poll round only through the request for the created task id: poll rounds that agree on that request give the same outcome, whatever they answer to any other request. |
| AntiCaptcha.AwaitResult | acmethods.go:64-141 | The loop is still polling exactly when every reply says continue. A solution it settles on is for the polled task. |
| AntiCaptcha.AwaitResultIsFirstStop | acmethods.go:65-140 | The loop's outcome is what the first reply that does not continue says. |
| AntiCaptcha.TransportFailureIsRetried | acmethods.go:79-85 | A transport failure while polling is skipped: the outcome is that of the remaining replies. |
| AntiCaptcha.Solve | acmethods.go:143-164 | A failed creation is returned as it is. Every poll round then asks about the created task id. A solution is the poll loop's solution for that id, with the elapsed time stamped on it. Any other outcome is the poll loop's. |
| AntiCaptcha.FailedCreateIgnoresPolls | acmethods.go:145-148 | When creation fails, no poll reply is read. |
| AntiCaptcha.TaskType | acmethods.go:167-172 | Without a proxy the task type is the task name plus "Proxyless". With a proxy it is the bare task name. |
| AntiCaptcha.ApplyProxy | acmethods.go:166-186 | Without a proxy only type is added. With one, proxyAddress, proxyPort and proxyType are added, with https reported as http. proxyLogin and proxyPassword are added exactly when a login exists. Every other key is kept. |
| AntiCaptcha.ProxyTypeNeverHttps | acmethods.go:181-185 | The proxy type sent to a task-based backend is a known type, and never https. |
| AntiCaptcha.Website | acmethods.go:214-218 | The reCAPTCHA and hCaptcha tasks start from exactly the page URL, the site key and the invisible flag. |
| AntiCaptcha.WebsiteSurvivesProxy | acmethods.go:242-248 | Applying the proxy keeps the page, key and visibility fields, and adds exactly the proxy keys, carrying the proxy's address, port, type and login. |
| AntiCaptcha.RecaptchaV2Typed | acmethods.go:214-225 | An enterprise payload selects the RecaptchaV2EnterpriseTask type and is sent as enterprisePayload. Otherwise the type is RecaptchaV2Task. The proxy keys carry the proxy's address, port, type and login. |
| AntiCaptcha.RecaptchaV2TaskProxy | acmethods.go:174-185 | The v2 task carries the proxy's address, port and type with https sent as http, and its username and password when it has a login. |
| AntiCaptcha.RecaptchaV2Task | acmethods.go:213-240 | The task holds exactly the website fields and the proxy keys, plus enterprisePayload, userAgent, cookies and recaptchaDataSValue each only when given, with their values. |
| AntiCaptcha.EnterpriseEndpoints | acmethods.go:262-276 | sentry is always sent. rqdata, apiEndpoint and endpoint are sent only when their field is non-empty, and endpoint carries the APIEndpoint value. |
| AntiCaptcha.EnterpriseHosts | acmethods.go:278-288 | reportapi, assethost and imghost are each sent only when non-empty. |
| AntiCaptcha.EnterprisePayload | acmethods.go:260-290 | The enterprise sub-payload is the endpoint keys and the host keys together. The two groups share no key. |
| AntiCaptcha.EndpointCarriesApiEndpoint | acmethods.go:274-276 | With an Endpoint but no APIEndpoint, the endpoint key is sent, empty, and no apiEndpoint key is sent. |
| AntiCaptcha.HCaptchaTyped | acmethods.go:242-252 | The hCaptcha task starts from the website fields and the proxy keys under the HCaptchaTask type, plus userAgent only when given. The proxy keys carry the proxy's address, port, type and login. |
| AntiCaptcha.HCaptchaTaskProxy | acmethods.go:174-185 | The hCaptcha task carries the proxy's address, port and type with https sent as http, and its username and password when it has a login. |
| AntiCaptcha.HCaptchaTask | acmethods.go:241-295 | The hCaptcha task holds exactly those keys, plus data when an enterprise payload has RQData, plus the enterprise sub-payload when one is given. |
| AntiCaptcha.FunCaptchaTaskProxy | acmethods.go:174-185 | The FunCaptcha task carries the proxy's address, port and type with https sent as http, and its username and password when it has a login. |
| AntiCaptcha.FunCaptchaTask | acmethods.go:296-308 | The FunCaptcha task holds its page, public key and subdomain, the proxy keys and a userAgent that is sent even when empty. |
| AntiCaptcha.RecaptchaV3Task | acmethods.go:309-320 | The v3 task is always proxyless and sends its six fields exactly as given. |
| AntiCaptcha.BalanceRequest | acmethods.go:190-196 | The balance call posts to the resolved domain's getBalance path exactly one key: the API key as clientKey. |
| AntiCaptcha.GetBalance | acmethods.go:189-212 | The reply read is the one to BalanceRequest. A transport error and an errorDescription are passed on. A missing balance gives "no balance". Otherwise the result is the balance, and success happens exactly then. |
| AntiCaptcha.Methods | acmethods.go:188-321 | The task-based adapter provides every capability; which request each sends is stated by the forwarding lemmas below. |
| AntiCaptcha.MethodsForward | acmethods.go:189-240 | Through the facade, a reCAPTCHA v2 call is one createTask-and-poll round of its task, and the balance is the backend's getBalance. |
| AntiCaptcha.RecaptchaV3Forwards | acmethods.go:309-320 | Through the facade, a reCAPTCHA v3 call is one createTask-and-poll round of the v3 task. |
| AntiCaptcha.HCaptchaForwards | acmethods.go:241-295 | Through the facade, an hCaptcha call is one createTask-and-poll round of the hCaptcha task. |
| AntiCaptcha.FunCaptchaForwards | acmethods.go:296-308 | Through the facade, a FunCaptcha call is one createTask-and-poll round of the FunCaptcha task. |
| TwoCaptcha.SubmitRequest | tcmethods.go:27-33 | The in.php request carries every task parameter, with key set to the API key and soft_id set to 3413 written over them. |
| TwoCaptcha.ParseTaskId | tcmethods.go:33-47 | A transport error is passed on. A body without a bar is the error, verbatim. Otherwise the field after the first bar must parse as a decimal integer, which is the id; any other field is a number error. |
| TwoCaptcha.TaskIdReadsBack | tcmethods.go:38-47 | An id the backend writes in decimal after the OK marker reads back as that id, with or without a further bar-separated field. |
| TwoCaptcha.PollRequest | tcmethods.go:58-62 | Each poll sends res.php exactly three parameters: the API key as key, action get, and the task id as id. |
| TwoCaptcha.PollRequestNamesTask | tcmethods.go:58-62 | The id parameter renders as decimal text that parses back to the task id, and a poll is never mistaken for a balance request. |
| TwoCaptcha.PollsAskForSubmittedTask | tcmethods.go:58-62 | Solve reads each poll round only through the request for the submitted task id: poll rounds that agree on that request give the same outcome. |
| TwoCaptcha.PollStep | tcmethods.go:58-78 | A transport error ends the loop. The loop continues exactly when the body mentions CAPCHA_NOT_READY, and that test comes first. A body without the OK marker is the error, verbatim. Otherwise the answer is the body without a leading OK marker, with the polled task id and empty cost and ip. |
| TwoCaptcha.AnswerReadsBack | tcmethods.go:67-78 | An answer written after the OK marker reads back as that answer whenever the answer does not itself mention CAPCHA_NOT_READY. |
| TwoCaptcha.EmbeddedOkIsKept | tcmethods.go:67-76 | A body that does not start with the OK marker but contains it, and does not mention CAPCHA_NOT_READY, is found by the OK test but not trimmed, so the whole body is the answer. |
| TwoCaptcha.EmbeddedOkExample | tcmethods.go:67-76 | A token after other text, as in the body `xOK`, a bar, `03AC`, is taken whole as the answer. |
| TwoCaptcha.AwaitResult | tcmethods.go:50-80 | The loop is still polling exactly when every reply is a not-ready notice. A solution it settles on is for the polled task. |
| TwoCaptcha.AwaitResultIsFirstStop | tcmethods.go:51-79 | The loop's outcome is what the first reply that is not a not-ready notice says. |
| TwoCaptcha.TransportFailureEndsPolling | tcmethods.go:63-65 | A transport failure while polling ends the solve with that failure. |
| TwoCaptcha.Solve | tcmethods.go:82-103 | A failed submission is returned as it is. Every poll round then asks about the submitted task id. A solution is the poll loop's solution for the submitted task id, with the elapsed time stamped on it. Any other outcome is the poll loop's. |
| TwoCaptcha.BalanceRequest | tcmethods.go:107-112 | The balance call sends res.php exactly two parameters: the API key as key, and action getbalance. |
| TwoCaptcha.GetBalance | tcmethods.go:106-123 | The reply read is the one to BalanceRequest. A transport error is passed on. A body that does not parse as a float is the error, verbatim. Otherwise the result is the parsed value. |
| TwoCaptcha.ClientParams | tcmethods.go:143-150 | userAgent is sent only when given. proxy and proxytype are sent exactly when a proxy is given: proxy as its rendering, proxytype as its type upper-cased. |
| TwoCaptcha.ProxyReadsBack | tcmethods.go:147-150 | The proxytype lower-cases back to the stored type, so https stays https, and the proxy's port reads back from its rendering. |
| TwoCaptcha.RecaptchaV2Own | tcmethods.go:125-141 | method userrecaptcha, googlekey and pageurl are always sent. invisible is sent as 1 only when the captcha is invisible. data-s and cookies are sent only when given. |
| TwoCaptcha.RecaptchaV2Params | tcmethods.go:124-153 | The reCAPTCHA v2 parameters are exactly its own and the client's. The enterprise payload is not sent. |
| TwoCaptcha.HCaptchaOwn | tcmethods.go:155-176 | method hcaptcha, sitekey and pageurl are always sent, and invisible is sent as 1 only when set. data is sent exactly when an enterprise payload has RQData. |
| TwoCaptcha.HCaptchaParams | tcmethods.go:154-179 | The hCaptcha parameters are exactly its own and the client's. |
| TwoCaptcha.FunCaptchaOwn | tcmethods.go:181-189 | method funcaptcha, publickey and pageurl are always sent, and surl only when the subdomain is non-empty. |
| TwoCaptcha.FunCaptchaParams | tcmethods.go:180-201 | The FunCaptcha parameters are exactly its own and the client's. |
| TwoCaptcha.RecaptchaV3Params | tcmethods.go:202-223 | method, version v3, googlekey and pageurl are always sent. action, min_score and enterprise (as 1) are sent exactly when they differ from their zero values. |
| TwoCaptcha.Merge | tcmethods.go:143-150 | Parameter groups with disjoint keys combine without either overwriting the other. |
| TwoCaptcha.Methods | tcmethods.go:105-224 | The legacy adapter provides every capability; which request each sends is stated by the forwarding lemmas below. |
| TwoCaptcha.MethodsForwardParams | tcmethods.go:154-224 | Through the facade, reCAPTCHA v3, hCaptcha and FunCaptcha calls are each one in.php-and-poll round of their own parameters. |
| TwoCaptcha.MethodsForward | tcmethods.go:106-153 | Through the facade, a reCAPTCHA v2 call is one in.php-and-poll round of its parameters, and the balance is the backend's getbalance. |
| Solvers.Strip | solver.go:64 | The cleaned name is lower case and holds no space and no hyphen. A name already lower case and without spaces or hyphens is left as it is. |
| Solvers.FormatService | solver.go:63-72 | The formatted name is the lower-cased name without spaces or hyphens, with rucaptcha replaced by 2captcha. It is never rucaptcha itself. |
| Solvers.FormatServiceIdempotent | solver.go:63-72 | Formatting an already formatted name changes nothing. |
| Solvers.FormatServiceIgnoresCase | solver.go:64 | Names that differ only in letter case format alike. |
| Solvers.FormatServiceIgnoresSeparator | solver.go:64 | Inserting a space or a hyphen anywhere in a name does not change its formatted form. |
| Solvers.FormatsAs | solver.go:63-72 | A name whose letters lower-case one by one to a word without spaces or hyphens, other than rucaptcha, formats as that word. |
| Solvers.SeparatedSelects | solver.go:63-64 | A name with one space or hyphen selects what the name without it selects. |
| Solvers.AntiCaptchaSpelling | solver.go:33-37 | "Anti-Captcha" selects the task-based adapter at api.anti-captcha.com. |
| Solvers.AnyCaptchaSpelling | solver.go:33-40 | "AnyCaptcha" selects the task-based adapter at api.anycaptcha.com. |
| Solvers.CapMonsterSpelling | solver.go:33-43 | "Cap Monster" selects the task-based adapter at api.capmonster.cloud. |
| Solvers.CapSolverSpelling | solver.go:33-46 | "CapSolver" selects the task-based adapter at api.capsolver.com. |
| Solvers.TwoCaptchaSpelling | solver.go:33-49 | "2Captcha" selects the legacy adapter at 2captcha.com. |
| Solvers.RuCaptchaSpelling | solver.go:63-69 | "RuCaptcha" is the same service as 2captcha and selects the legacy adapter at 2captcha.com. |
| Solvers.Select | solver.go:35-52 | Exactly the five known names select a backend. Four select the task-based adapter with their host, and 2captcha selects the legacy adapter at 2captcha.com. |
| Solvers.SetService | solver.go:32-56 | An unknown name gives "that service isn't supported" and leaves the solver unchanged. A known name stores the formatted name and its backend, and keeps the settings. |
| Solvers.RuCaptchaIsTwoCaptcha | solver.go:66-69 | Every spelling of rucaptcha selects the 2captcha backend and is reported as 2captcha. |
| Solvers.GetServiceAfterSet | solver.go:54-60 | After a successful SetService, GetService reports the formatted name. After an unknown name it reports what it reported before. |
| Solvers.SetServiceRoundTrip | solver.go:54-60 | After a successful SetService, setting the service that GetService reports changes nothing. |
| Solvers.New | solver.go:17-30 | New fails exactly when SetService would. On success it uses a 2-second update delay, verbose logging, the given key and no forced domain. |
| Solvers.Methods | solver.go:35-49 | Both adapters provide every capability; which adapter serves each call is stated by the forwarding lemmas below. |
| Solvers.GetBalanceForwards | captchas.go:16-21 | A solver's balance is its backend adapter's balance call. |
| Solvers.RecaptchaV2OnTaskApi | captchas.go:24-29 | A task-based solver's reCAPTCHA v2 call is the task adapter's solve of the v2 task. |
| Solvers.RecaptchaV3OnTaskApi | captchas.go:31-36 | A task-based solver's reCAPTCHA v3 call is the task adapter's solve of the v3 task. |
| Solvers.HCaptchaOnTaskApi | captchas.go:38-43 | A task-based solver's hCaptcha call is the task adapter's solve of the hCaptcha task. |
| Solvers.FunCaptchaOnTaskApi | captchas.go:45-50 | A task-based solver's FunCaptcha call is the task adapter's solve of the FunCaptcha task. |
| Solvers.RecaptchaV2OnLegacyApi | captchas.go:24-29 | A legacy solver's reCAPTCHA v2 call is the legacy adapter's solve of the v2 parameters. |
| Solvers.RecaptchaV3OnLegacyApi | captchas.go:31-36 | A legacy solver's reCAPTCHA v3 call is the legacy adapter's solve of the v3 parameters. |
| Solvers.HCaptchaOnLegacyApi | captchas.go:38-43 | A legacy solver's hCaptcha call is the legacy adapter's solve of the hCaptcha parameters. |
| Solvers.FunCaptchaOnLegacyApi | captchas.go:45-50 | A legacy solver's FunCaptcha call is the legacy adapter's solve of the FunCaptcha parameters. |

## Left out

- HTTP and JSON are not modelled: `postJSON`, the network half of `postQuery`, and JSON encoding and decoding. A reply is either a transport failure or an already decoded body, supplied by the `World`.
- `time.Sleep` and `UpdateDelay` are not modelled; the delay only paces the loop. `time.Now` is replaced by an elapsed-time input, which is stamped on a solution exactly when there is one.
- Verbose printing is logging only, and is left out.
- AntiCaptcha.GetBalance, TwoCaptcha.GetBalance: floating point is opaque. A JSON balance is a `real`, and `strconv.ParseFloat` is a function supplied by the `World`.
- TwoCaptcha.RecaptchaV3Params: the `MinScore != 0` test is made on a `real`, not on a float64.
- Common.Render: the float formatting `%.3f` is a supplied function, and nothing is stated about its output.
- Common.QueryString: `url.QueryEscape` is a supplied function, and nothing is stated about its output.
- Go's map iteration order is not modelled. Cookies and query parameters are sequences in the order the map happens to be visited. Of the properties about them, only the header length is proved independent of that order (Common.CookiesLengthOrderFree).
- Go type-assertion panics are not modelled. Examples are a non-string errorDescription, ip or cost, and a non-number taskId or balance. Each such assertion is a precondition instead (`CreateReplyWellTyped`, `PollsWellTyped`, `BalanceReplyWellTyped`). It constrains only the replies the code actually reads.
- AntiCaptcha.TruncateToInt: Go's conversion of a float64 outside the int64 range is implementation-defined. The model truncates without bounds.
- Proxies.ProxyStringReadsBack, TwoCaptcha.TaskIdReadsBack, TwoCaptcha.ProxyReadsBack: these are stated for values within the 64-bit `int` range. Outside it, `strconv.Atoi` fails.
- Proxies.NewProxy, Solvers.Strip, Solvers.FormatService, Solvers.FormatServiceIgnoresCase: `strings.ToLower` and `strings.ToUpper` are modelled on ASCII letters only. Other letters are left as they are. Go maps some of them to ASCII; for example it lower-cases "ANT\u0130CAPTCHA" (with a dotted capital I) to "anticaptcha", which the model does not.
- AntiCaptcha.CapMonsterDomainSoftId, AntiCaptcha.LaterBackendsSoftId: these are stated for any domain that contains the backend's name and avoids one character. The four default hosts, with a scheme in front, are instances of this.
- A `Solver` on which no `SetService` has succeeded, such as one built directly as a struct literal, has nil methods, and calling it panics in Go. The model's `Solver` always carries a backend, so it has no such solver.
- The legacy adapter writes `key` and `soft_id` into the caller's own parameter map. The model returns a new map instead, because Dafny maps are values.
- The repository's demo programs are not modelled. They are command-line demos, and one of them calls a Cloudflare capability that the library does not have.

=== FILE: acmethods.dfy ===
/** acmethods.go: the adapter for backends with a JSON "create task, then poll
    for its result" API (anti-captcha and the services that copy its API). */
module AntiCaptcha {
  import opened Wrappers
  import opened StringOps
  import opened Json
  import opened Common
  import opened Proxies
  import opened Captchas

  // ---------------------------------------------------------------- create task

  /** The identification value the adapter sends to a backend, chosen by the first
      hostname fragment the resolved domain contains: 59 for a capmonster domain
      that is not also an anti-captcha one, 1029 for every other known backend. */
  function SoftId(d: string): (r: Option<int>)
    ensures r.Some? <==>
              || Contains(d, "anti-captcha.com") || Contains(d, "capmonster.cloud")
              || Contains(d, "api.capsolver.com") || Contains(d, "api.anycaptcha.com")
    ensures r.Some? ==> r.value == (if !Contains(d, "anti-captcha.com") && Contains(d, "capmonster.cloud") then 59 else 1029)
  {
    if Contains(d, "anti-captcha.com") then Some(1029)
    else if Contains(d, "capmonster.cloud") then Some(59)
    else if Contains(d, "api.capsolver.com") then Some(1029)
    else if Contains(d, "api.anycaptcha.com") then Some(1029)
    else None
  }

  /** Any domain naming anti-captcha identifies as 1029, whatever else it names. */
  lemma AntiCaptchaDomainSoftId(p: string, q: string)
    ensures SoftId(p + "anti-captcha.com" + q) == Some(1029)
  {
    ContainsInfix(p, "anti-captcha.com", q);
  }

  /** A capmonster domain without a hyphen cannot also name anti-captcha, so it identifies as 59. */
  lemma CapMonsterDomainSoftId(p: string, q: string)
    requires '-' !in p && '-' !in q
    ensures SoftId(p + "capmonster.cloud" + q) == Some(59)
  {
    var d := p + "capmonster.cloud" + q;
    ContainsInfix(p, "capmonster.cloud", q);
    assert '-' !in "capmonster.cloud";
    NotContainedWithout(d, "anti-captcha.com", '-');
  }

  /** The two later fragments name no capmonster host when the text around them
      lacks a letter of "capmonster.cloud" that they lack too (`n` for
      capsolver, `e` for anycaptcha); such domains identify as 1029. */
  lemma LaterBackendsSoftId(p: string, q: string)
    ensures 'n' !in p && 'n' !in q ==> SoftId(p + "api.capsolver.com" + q) == Some(1029)
    ensures 'e' !in p && 'e' !in q ==> SoftId(p + "api.anycaptcha.com" + q) == Some(1029)
  {
    if 'n' !in p && 'n' !in q {
      var d := p + "api.capsolver.com" + q;
      ContainsInfix(p, "api.capsolver.com", q);
      assert 'n' !in "api.capsolver.com";
      NotContainedWithout(d, "capmonster.cloud", 'n');
    }
    if 'e' !in p && 'e' !in q {
      var d := p + "api.anycaptcha.com" + q;
      ContainsInfix(p, "api.anycaptcha.com", q);
      assert 'e' !in "api.anycaptcha.com";
      NotContainedWithout(d, "capmonster.cloud", 'e');
    }
  }

  /** The createTask request: the API key and the task, plus `softId` exactly when
      the domain names a known backend. */
  function CreateTaskRequest(c: Config, preferred: string, task: Object): (r: Request)
    ensures r.url == Domain(preferred, c.forcedDomain) + "/createTask"
    ensures "clientKey" in r.params && r.params["clientKey"] == Str(c.apiKey)
    ensures "task" in r.params && r.params["task"] == Obj(task)
    ensures r.params.Keys <= {"clientKey", "task", "softId"}
    ensures var id := SoftId(Domain(preferred, c.forcedDomain));
            && ("softId" in r.params <==> id.Some?)
            && ("softId" in r.params ==> r.params["softId"] == Int(id.value))
  {
    var d := Domain(preferred, c.forcedDomain);
    var payload := map["clientKey" := Str(c.apiKey), "task" := Obj(task)];
    var params := if SoftId(d).Some? then payload["softId" := Int(SoftId(d).value)] else payload;
    Request(d + "/createTask", params)
  }

  /** The shapes of a createTask response the Go code can read without a failed
      type assertion: a non-nil errorDescription is a string, and a taskId read
      after it is a JSON number. */
  predicate CreateReplyWellTyped(reply: Reply<Object>) {
    reply.Delivered? ==>
      if Given(reply.body, "errorDescription") then reply.body["errorDescription"].Str?
      else "taskId" in reply.body ==> reply.body["taskId"].Float?
  }

  /** Go's `int(f)` for a float64: the integer part, rounding toward zero. */
  function TruncateToInt(x: real): (n: int)
    ensures 0.0 <= x ==> n as real <= x < n as real + 1.0
    ensures x < 0.0 ==> n as real - 1.0 < x <= n as real
  {
    if x >= 0.0 then x.Floor else -((-x).Floor)
  }

  /** What createTask makes of the backend's reply: a transport failure as is, a
      non-nil errorDescription verbatim (before anything else is looked at),
      "no taskId" when there is no id, and otherwise the id as an integer. */
  function ParseCreateTask(reply: Reply<Object>): (r: Result<int, Error>)
    requires CreateReplyWellTyped(reply)
    ensures reply.Unreachable? ==> r == Failure(Transport(reply.reason))
    ensures reply.Delivered? && Given(reply.body, "errorDescription") ==>
              r == Failure(Remote(reply.body["errorDescription"].s))
    ensures reply.Delivered? && !Given(reply.body, "errorDescription") && "taskId" !in reply.body ==>
              r == Failure(Protocol("no taskId"))
    ensures r.Success? <==>
              reply.Delivered? && !Given(reply.body, "errorDescription") && "taskId" in reply.body
    ensures r.Success? ==> r.value == TruncateToInt(reply.body["taskId"].x)
  {
    match reply
    case Unreachable(why) => Failure(Transport(why))
    case Delivered(body) =>
      if Given(body, "errorDescription") then Failure(Remote(body["errorDescription"].s))
      else if "taskId" !in body then Failure(Protocol("no taskId"))
      else Success(TruncateToInt(body["taskId"].x))
  }

  /** A whole-number task id sent back as a JSON number reads back as that id. */
  lemma CreatedIdReadsBack(id: int, extra: Object)
    requires !Given(extra, "errorDescription")
    ensures ParseCreateTask(Delivered(extra["taskId" := Float(id as real)])) == Success(id)
  {
    var body := extra["taskId" := Float(id as real)];
    assert Get(body, "errorDescription") == Get(extra, "errorDescription");
    if id >= 0 {
      assert (id as real).Floor == id;
    } else {
      assert (-(id as real)).Floor == -id;
    }
  }

  /** Any reply carrying an error description fails with that text, whatever id it also carries. */
  lemma ErrorDescriptionWins(message: string, id: real)
    ensures ParseCreateTask(Delivered(map["errorDescription" := Str(message), "taskId" := Float(id)])) == Failure(Remote(message))
  {
    var body := map["errorDescription" := Str(message), "taskId" := Float(id)];
    assert Get(body, "errorDescription") == Str(message);
  }

  // ---------------------------------------------------------------- poll

  /** The getTaskResult request every round of the loop sends for task `taskId`. */
  function PollRequest(c: Config, preferred: string, taskId: int): (r: Request)
    ensures r.url == Domain(preferred, c.forcedDomain) + "/getTaskResult"
    ensures r.params.Keys == {"clientKey", "taskId"}
    ensures r.params["clientKey"] == Str(c.apiKey) && r.params["taskId"] == Int(taskId)
  {
    Request(Domain(preferred, c.forcedDomain) + "/getTaskResult", map["clientKey" := Str(c.apiKey), "taskId" := Int(taskId)])
  }

  /** The replies the poll rounds get when each asks about task `taskId`. */
  function PollReplies(c: Config, preferred: string, taskId: int, w: World): seq<Reply<Object>> {
    Answers(w.json.polls, PollRequest(c, preferred, taskId))
  }

  /** A poll reply after which the loop goes round again: a transport failure, or
      a body without error whose status is "processing". */
  predicate Continues(reply: Reply<Object>) {
    reply.Unreachable? ||
    (!Given(reply.body, "errorDescription") && Get(reply.body, "status") == Str("processing"))
  }

  /** The solution text field: gRecaptchaResponse when it is non-nil, else token. */
  function SolutionText(sol: Object): (v: Value)
    ensures Given(sol, "gRecaptchaResponse") ==> v == sol["gRecaptchaResponse"]
    ensures !Given(sol, "gRecaptchaResponse") ==> v == Get(sol, "token")
  {
    if Given(sol, "gRecaptchaResponse") then sol["gRecaptchaResponse"] else Get(sol, "token")
  }

  /** An optional string field that reads as "" when nil. */
  function OptionalString(b: Object, k: string): (s: string)
    requires Given(b, k) ==> b[k].Str?
    ensures !Given(b, k) ==> s == ""
    ensures Given(b, k) ==> s == b[k].s
  {
    if Given(b, k) then b[k].s else ""
  }

  /** The shapes of a "ready" body the Go code reads without a failed type
      assertion: a present solution is an object, the text chosen from it is a
      string, and a non-nil ip or cost read after it is a string. */
  predicate ReadyWellTyped(b: Object) {
    "solution" in b ==>
      && b["solution"].Obj?
      && (var t := SolutionText(b["solution"].fields);
          t != Null ==> t.Str? && (Given(b, "ip") ==> b["ip"].Str?) && (Given(b, "cost") ==> b["cost"].Str?))
  }

  /** The "ready" branch of getResponse. */
  function ReadyStep(taskId: int, b: Object): (s: Step)
    requires ReadyWellTyped(b)
    ensures "solution" !in b ==> s == Abort(Protocol("no solution"))
    ensures "solution" in b && SolutionText(b["solution"].fields) == Null ==> s == Abort(Protocol("no solution text"))
    ensures s.Finish? <==> "solution" in b && SolutionText(b["solution"].fields) != Null
    ensures s.Finish? ==>
              var sol := b["solution"].fields;
              && s.solution.taskId == taskId
              && s.solution.text == (if Given(sol, "gRecaptchaResponse") then sol["gRecaptchaResponse"].s else sol["token"].s)
              && s.solution.ip == OptionalString(b, "ip")
              && s.solution.cost == OptionalString(b, "cost")
              && s.solution.speed == 0 && s.solution.cookies.None?
  {
    if "solution" !in b then Abort(Protocol("no solution"))
    else
      var response := SolutionText(b["solution"].fields);
      if response == Null then Abort(Protocol("no solution text"))
      else Finish(Fresh(response.s, taskId, OptionalString(b, "cost"), OptionalString(b, "ip")))
  }

  /** The shapes of a getTaskResult body the Go code reads without a failed type assertion. */
  predicate PollReplyWellTyped(reply: Reply<Object>) {
    reply.Delivered? ==>
      if Given(reply.body, "errorDescription") then reply.body["errorDescription"].Str?
      else Get(reply.body, "status") == Str("ready") ==> ReadyWellTyped(reply.body)
  }

  /** One round of getResponse: transport failures and "processing" continue, a
      non-nil errorDescription ends the loop with that text whatever the status,
      "ready" reads the solution, and any other status is "unknown status". */
  function PollStep(taskId: int, reply: Reply<Object>): (s: Step)
    requires PollReplyWellTyped(reply)
    ensures s.Continue? <==> Continues(reply)
    ensures reply.Delivered? && Given(reply.body, "errorDescription") ==>
              s == Abort(Remote(reply.body["errorDescription"].s))
    ensures reply.Delivered? && !Given(reply.body, "errorDescription") ==>
              var status := Get(reply.body, "status");
              && (status == Str("ready") ==> s == ReadyStep(taskId, reply.body))
              && (status != Str("ready") && status != Str("processing") ==> s == Abort(Protocol("unknown status")))
  {
    match reply
    case Unreachable(_) => Continue
    case Delivered(body) =>
      if Given(body, "errorDescription") then Abort(Remote(body["errorDescription"].s))
      else
        var status := Get(body, "status");
        if status == Str("processing") then Continue
        else if status == Str("ready") then ReadyStep(taskId, body)
        else Abort(Protocol("unknown status"))
  }

  /** The replies the poll loop reads are well-typed: each one up to and including
      the first that ends the loop. Replies after that one are never read. */
  predicate PollsWellTyped(replies: seq<Reply<Object>>)
    decreases |replies|
  {
    |replies| == 0 ||
    (PollReplyWellTyped(replies[0]) && (Continues(replies[0]) ==> PollsWellTyped(replies[1..])))
  }

  /** Index `k` holds the first reply that ends the loop. */
  ghost predicate FirstStop(replies: seq<Reply<Object>>, k: int) {
    0 <= k < |replies| && !Continues(replies[k]) && forall j :: 0 <= j < k ==> Continues(replies[j])
  }

  /** getResponse's loop run over a finite script of replies. It is still polling
      exactly when every reply says to continue; a solution it settles on is for
      the polled task. */
  function AwaitResult(taskId: int, replies: seq<Reply<Object>>): (r: Outcome)
    requires PollsWellTyped(replies)
    ensures r.Polling? <==> forall i :: 0 <= i < |replies| ==> Continues(replies[i])
    ensures r.Solved? ==> r.solution.taskId == taskId && r.solution.speed == 0
    decreases |replies|
  {
    if |replies| == 0 then Polling
    else
      var s := PollStep(taskId, replies[0]);
      if s.Continue? then
        assert forall j :: 0 <= j < |replies[1..]| ==> replies[1..][j] == replies[j + 1];
        AwaitResult(taskId, replies[1..])
      else
        Settle(s)
  }

  /** The loop's outcome is decided by the first reply that does not continue:
      that reply is read, and the loop settles on what it says. */
  lemma {:induction false} AwaitResultIsFirstStop(taskId: int, replies: seq<Reply<Object>>, k: int)
    requires PollsWellTyped(replies) && FirstStop(replies, k)
    ensures PollReplyWellTyped(replies[k])
    ensures AwaitResult(taskId, replies) == Settle(PollStep(taskId, replies[k]))
    decreases k
  {
    if k > 0 {
      assert Continues(replies[0]);
      assert FirstStop(replies[1..], k - 1) by {
        assert forall j :: 0 <= j < k - 1 ==> replies[1..][j] == replies[j + 1];
      }
      AwaitResultIsFirstStop(taskId, replies[1..], k - 1);
      assert replies[1..][k - 1] == replies[k];
    }
  }

  /** A transport failure while polling is retried: the loop goes on with the next reply. */
  lemma TransportFailureIsRetried(taskId: int, reason: string, rest: seq<Reply<Object>>)
    requires PollsWellTyped(rest)
    ensures PollsWellTyped([Unreachable(reason)] + rest)
    ensures AwaitResult(taskId, [Unreachable(reason)] + rest) == AwaitResult(taskId, rest)
  {
    var replies := [Unreachable(reason)] + rest;
    assert replies[0] == Unreachable(reason) && replies[1..] == rest;
  }

  // ---------------------------------------------------------------- create and wait

  /** The world a solve of `task` runs in has replies of the shapes the Go code expects. */
  predicate SolveWellTyped(c: Config, preferred: string, task: Object, w: World) {
    var reply := w.json.submit(CreateTaskRequest(c, preferred, task));
    && CreateReplyWellTyped(reply)
    && (ParseCreateTask(reply).Success? ==> PollsWellTyped(PollReplies(c, preferred, ParseCreateTask(reply).value, w)))
  }

  /** createResponse: create the task, then poll for it, every round asking
      getTaskResult about the created id. A failed creation is returned as it is
      and no poll is read; a solution is the loop's, with the elapsed time. */
  function Solve(c: Config, preferred: string, task: Object, w: World): (r: Outcome)
    requires SolveWellTyped(c, preferred, task, w)
    ensures var created := ParseCreateTask(w.json.submit(CreateTaskRequest(c, preferred, task)));
            && (created.Failure? ==> r == Failed(created.error))
            && (r.Solved? ==> created.Success? && r.solution.taskId == created.value && r.solution.speed == w.elapsedMs)
            && (created.Success? && !r.Solved? ==> r == AwaitResult(created.value, PollReplies(c, preferred, created.value, w)))
            && (r.Solved? ==> created.Success? && AwaitResult(created.value, PollReplies(c, preferred, created.value, w)) == Solved(r.solution.(speed := 0)))
  {
    match ParseCreateTask(w.json.submit(CreateTaskRequest(c, preferred, task)))
    case Failure(e) => Failed(e)
    case Success(id) =>
      match AwaitResult(id, PollReplies(c, preferred, id, w))
      case Solved(sol) => Solved(sol.(speed := w.elapsedMs))
      case other => other
  }

  /** A failed creation decides the outcome alone: the poll replies are never read. */
  lemma FailedCreateIgnoresPolls(c: Config, preferred: string, task: Object, w: World, polls: seq<Request -> Reply<Object>>)
    requires SolveWellTyped(c, preferred, task, w)
    requires ParseCreateTask(w.json.submit(CreateTaskRequest(c, preferred, task))).Failure?
    ensures var w2 := w.(json := w.json.(polls := polls));
            SolveWellTyped(c, preferred, task, w2) && Solve(c, preferred, task, w2) == Solve(c, preferred, task, w)
  {
  }

  /** The polls ask about the created task and nothing else: a poll script that
      answers the getTaskResult request for the created id as the world's does,
      round by round, gives the same outcome whatever it answers to other requests. */
  lemma PollsAskForCreatedTask(c: Config, preferred: string, task: Object, w: World, polls: seq<Request -> Reply<Object>>)
    requires SolveWellTyped(c, preferred, task, w)
    requires var created := ParseCreateTask(w.json.submit(CreateTaskRequest(c, preferred, task)));
             created.Success? ==>
               && |polls| == |w.json.polls|
               && forall i :: 0 <= i < |polls| ==>
                    polls[i](PollRequest(c, preferred, created.value)) == w.json.polls[i](PollRequest(c, preferred, created.value))
    ensures var w2 := w.(json := w.json.(polls := polls));
            SolveWellTyped(c, preferred, task, w2) && Solve(c, preferred, task, w2) == Solve(c, preferred, task, w)
  {
    var w2 := w.(json := w.json.(polls := polls));
    var created := ParseCreateTask(w.json.submit(CreateTaskRequest(c, preferred, task)));
    if created.Success? {
      assert PollReplies(c, preferred, created.value, w2) == PollReplies(c, preferred, created.value, w);
    }
  }

  // ---------------------------------------------------------------- payloads

  /** The keys applyProxy may set. */
  predicate ProxyField(k: string) {
    k == "type" || k == "proxyAddress" || k == "proxyPort" || k == "proxyType" || k == "proxyLogin" || k == "proxyPassword"
  }

  /** The keys applyProxy sets. */
  function ProxyKeys(p: Option<Proxy>): (ks: set<string>)
    ensures forall k :: k in ks ==> ProxyField(k)
  {
    match p
    case None => {"type"}
    case Some(x) =>
      {"type", "proxyAddress", "proxyPort", "proxyType"} + (if x.login.Some? then {"proxyLogin", "proxyPassword"} else {})
  }

  /** The proxy as a task-based backend receives it: its address, its port and
      its type, with https reported as http, plus the username and password
      when it has a login. */
  predicate ProxySpelledOut(r: Object, p: Option<Proxy>) {
    p.Some? ==>
      && "proxyAddress" in r && r["proxyAddress"] == Str(p.value.address)
      && "proxyPort" in r && r["proxyPort"] == Int(p.value.port)
      && "proxyType" in r && r["proxyType"] == Str(if p.value.pType == HttpsType then HttpType else p.value.pType)
      && (p.value.login.Some? ==>
            && "proxyLogin" in r && r["proxyLogin"] == Str(p.value.login.value.username)
            && "proxyPassword" in r && r["proxyPassword"] == Str(p.value.login.value.password))
  }

  /** Setting a key applyProxy does not own leaves the proxy fields as they were. */
  lemma PutKeepsProxy(r: Object, p: Option<Proxy>, cond: bool, k: string, v: Value)
    requires ProxySpelledOut(r, p) && !ProxyField(k)
    ensures ProxySpelledOut(PutIf(r, cond, k, v), p)
  {
  }

  /** The type a task is sent as: the task name, with "Proxyless" appended when there is no proxy. */
  function TaskType(taskName: string, p: Option<Proxy>): (t: string)
    ensures p.None? ==> t == taskName + "Proxyless"
    ensures p.Some? ==> t == taskName
  {
    if p.None? then taskName + "Proxyless" else taskName
  }

  /** applyProxy: without a proxy only `type` is set, to the task name plus
      "Proxyless"; with one, `type` is the bare task name and the proxy is spelled
      out in discrete fields, with https reported as http. Other keys are kept. */
  function ApplyProxy(data: Object, p: Option<Proxy>, taskName: string): (r: Object)
    ensures r.Keys == data.Keys + ProxyKeys(p)
    ensures forall k :: k in data && !ProxyField(k) ==> r[k] == data[k]
    ensures r["type"] == Str(TaskType(taskName, p))
    ensures ProxySpelledOut(r, p)
  {
    match p
    case None => data["type" := Str(taskName + "Proxyless")]
    case Some(x) =>
      var located := data["type" := Str(taskName)]["proxyAddress" := Str(x.address)]["proxyPort" := Int(x.port)];
      var logged := match x.login
        case Some(l) => located["proxyLogin" := Str(l.username)]["proxyPassword" := Str(l.password)]
        case None => located;
      logged["proxyType" := Str(if x.pType == HttpsType then HttpType else x.pType)]
  }

  /** The proxy type a task-based backend is told is never https. */
  lemma ProxyTypeNeverHttps(data: Object, p: Proxy, taskName: string)
    requires KnownType(p.pType)
    ensures var r := ApplyProxy(data, Some(p), taskName);
            r["proxyType"] != Str(HttpsType) && KnownType(r["proxyType"].s)
  {
  }

  /** The three fields the reCAPTCHA and hCaptcha tasks start from. */
  function Website(url: string, key: string, invisible: bool): (r: Object)
    ensures r.Keys == {"websiteURL", "websiteKey", "isInvisible"}
    ensures r["websiteURL"] == Str(url) && r["websiteKey"] == Str(key) && r["isInvisible"] == Bool(invisible)
  {
    map["websiteURL" := Str(url), "websiteKey" := Str(key), "isInvisible" := Bool(invisible)]
  }

  /** A starting object with its proxy fields applied keeps its own fields. */
  lemma WebsiteSurvivesProxy(url: string, key: string, invisible: bool, p: Option<Proxy>, taskName: string)
    ensures var r := ApplyProxy(Website(url, key, invisible), p, taskName);
            && r.Keys == {"websiteURL", "websiteKey", "isInvisible"} + ProxyKeys(p)
            && r["websiteURL"] == Str(url) && r["websiteKey"] == Str(key) && r["isInvisible"] == Bool(invisible)
            && r["type"] == Str(TaskType(taskName, p))
            && ProxySpelledOut(r, p)
  {
    assert !ProxyField("websiteURL") && !ProxyField("websiteKey") && !ProxyField("isInvisible");
  }

  /** The RecaptchaV2 fields every task carries: page, key, visibility, type and
      proxy, plus the enterprise payload when there is one. */
  function RecaptchaV2Typed(o: RecaptchaV2Options): (r: Object)
    ensures r.Keys == {"websiteURL", "websiteKey", "isInvisible"} + ProxyKeys(o.proxy) + KeyIf(o.enterprise.Some?, "enterprisePayload")
    ensures r["websiteURL"] == Str(o.pageUrl) && r["websiteKey"] == Str(o.siteKey) && r["isInvisible"] == Bool(o.invisible)
    ensures r["type"] == Str(TaskType(if o.enterprise.Some? then "RecaptchaV2EnterpriseTask" else "RecaptchaV2Task", o.proxy))
    ensures o.enterprise.Some? ==> r["enterprisePayload"] == Obj(o.enterprise.value)
    ensures ProxySpelledOut(r, o.proxy)
  {
    var name := if o.enterprise.Some? then "RecaptchaV2EnterpriseTask" else "RecaptchaV2Task";
    var proxied := ApplyProxy(Website(o.pageUrl, o.siteKey, o.invisible), o.proxy, name);
    WebsiteSurvivesProxy(o.pageUrl, o.siteKey, o.invisible, o.proxy, name);
    assert !ProxyField("enterprisePayload");
    if o.enterprise.Some? then proxied["enterprisePayload" := Obj(o.enterprise.value)] else proxied
  }

  /** The RecaptchaV2 task: an enterprise payload selects the enterprise task type
      and is sent along; user agent, cookies and data-s appear only when given. */
  function RecaptchaV2Task(o: RecaptchaV2Options): (r: Object)
    ensures r.Keys ==
              {"websiteURL", "websiteKey", "isInvisible"} + ProxyKeys(o.proxy)
              + KeyIf(o.enterprise.Some?, "enterprisePayload") + KeyIf(o.userAgent != "", "userAgent")
              + KeyIf(|o.cookies| > 0, "cookies") + KeyIf(o.dataS != "", "recaptchaDataSValue")
    ensures r["websiteURL"] == Str(o.pageUrl) && r["websiteKey"] == Str(o.siteKey) && r["isInvisible"] == Bool(o.invisible)
    ensures r["type"] == Str(TaskType(if o.enterprise.Some? then "RecaptchaV2EnterpriseTask" else "RecaptchaV2Task", o.proxy))
    ensures o.enterprise.Some? ==> r["enterprisePayload"] == Obj(o.enterprise.value)
    ensures o.userAgent != "" ==> r["userAgent"] == Str(o.userAgent)
    ensures |o.cookies| > 0 ==> r["cookies"] == Str(CookiesToString(o.cookies))
    ensures o.dataS != "" ==> r["recaptchaDataSValue"] == Str(o.dataS)
  {
    var typed := RecaptchaV2Typed(o);
    var withAgent := PutIf(typed, o.userAgent != "", "userAgent", Str(o.userAgent));
    var withCookies := PutIf(withAgent, |o.cookies| > 0, "cookies", Str(CookiesToString(o.cookies)));
    PutIf(withCookies, o.dataS != "", "recaptchaDataSValue", Str(o.dataS))
  }

  /** The reCAPTCHA v2 task spells out the proxy it was given. */
  lemma RecaptchaV2TaskProxy(o: RecaptchaV2Options)
    ensures ProxySpelledOut(RecaptchaV2Task(o), o.proxy)
  {
    var typed := RecaptchaV2Typed(o);
    var withAgent := PutIf(typed, o.userAgent != "", "userAgent", Str(o.userAgent));
    var withCookies := PutIf(withAgent, |o.cookies| > 0, "cookies", Str(CookiesToString(o.cookies)));
    PutKeepsProxy(typed, o.proxy, o.userAgent != "", "userAgent", Str(o.userAgent));
    PutKeepsProxy(withAgent, o.proxy, |o.cookies| > 0, "cookies", Str(CookiesToString(o.cookies)));
    PutKeepsProxy(withCookies, o.proxy, o.dataS != "", "recaptchaDataSValue", Str(o.dataS));
  }

  /** The enterprise keys naming the hCaptcha endpoint: `sentry` always, the
      others only when their field is non-empty. */
  function EnterpriseEndpoints(ep: HCaptchaEnterprise): (r: Object)
    ensures r.Keys <= {"sentry", "rqdata", "apiEndpoint", "endpoint"}
    ensures "sentry" in r && r["sentry"] == Bool(ep.sentry)
    ensures ("rqdata" in r <==> ep.rqData != "") && ("rqdata" in r ==> r["rqdata"] == Str(ep.rqData))
    ensures ("apiEndpoint" in r <==> ep.apiEndpoint != "") && ("apiEndpoint" in r ==> r["apiEndpoint"] == Str(ep.apiEndpoint))
    ensures ("endpoint" in r <==> ep.endpoint != "") && ("endpoint" in r ==> r["endpoint"] == Str(ep.apiEndpoint))
  {
    var p0 := map["sentry" := Bool(ep.sentry)];
    var p1 := if ep.rqData != "" then p0["rqdata" := Str(ep.rqData)] else p0;
    var p2 := if ep.apiEndpoint != "" then p1["apiEndpoint" := Str(ep.apiEndpoint)] else p1;
    if ep.endpoint != "" then p2["endpoint" := Str(ep.apiEndpoint)] else p2
  }

  /** The enterprise keys naming hosts, each only when its field is non-empty. */
  function EnterpriseHosts(ep: HCaptchaEnterprise): (r: Object)
    ensures r.Keys <= {"reportapi", "assethost", "imghost"}
    ensures ("reportapi" in r <==> ep.reportApi != "") && ("reportapi" in r ==> r["reportapi"] == Str(ep.reportApi))
    ensures ("assethost" in r <==> ep.assetHost != "") && ("assethost" in r ==> r["assethost"] == Str(ep.assetHost))
    ensures ("imghost" in r <==> ep.imgHost != "") && ("imghost" in r ==> r["imghost"] == Str(ep.imgHost))
  {
    var p3: Object := if ep.reportApi != "" then map["reportapi" := Str(ep.reportApi)] else map[];
    var p4 := if ep.assetHost != "" then p3["assethost" := Str(ep.assetHost)] else p3;
    if ep.imgHost != "" then p4["imghost" := Str(ep.imgHost)] else p4
  }

  /** The hCaptcha enterprise sub-payload: the endpoint keys and the host keys
      together (the two groups share no key). */
  function EnterprisePayload(ep: HCaptchaEnterprise): (r: Object)
    ensures EnterpriseEndpoints(ep).Keys !! EnterpriseHosts(ep).Keys
    ensures r.Keys == EnterpriseEndpoints(ep).Keys + EnterpriseHosts(ep).Keys
    ensures forall k :: k in EnterpriseEndpoints(ep) ==> r[k] == EnterpriseEndpoints(ep)[k]
    ensures forall k :: k in EnterpriseHosts(ep) ==> r[k] == EnterpriseHosts(ep)[k]
  {
    EnterpriseEndpoints(ep) + EnterpriseHosts(ep)
  }

  /** The endpoint key does not carry the Endpoint field: with an empty
      APIEndpoint it is sent as the empty string. */
  lemma EndpointCarriesApiEndpoint(ep: HCaptchaEnterprise)
    requires ep.endpoint != "" && ep.apiEndpoint == ""
    ensures "endpoint" in EnterprisePayload(ep) && EnterprisePayload(ep)["endpoint"] == Str("")
    ensures "apiEndpoint" !in EnterprisePayload(ep)
  {
  }

  /** The hCaptcha fields every task carries: page, key, visibility, type and
      proxy, plus the user agent when one is given. */
  function HCaptchaTyped(o: HCaptchaOptions): (r: Object)
    ensures r.Keys == {"websiteURL", "websiteKey", "isInvisible"} + ProxyKeys(o.proxy) + KeyIf(o.userAgent != "", "userAgent")
    ensures r["websiteURL"] == Str(o.pageUrl) && r["websiteKey"] == Str(o.siteKey) && r["isInvisible"] == Bool(o.invisible)
    ensures r["type"] == Str(TaskType("HCaptchaTask", o.proxy))
    ensures o.userAgent != "" ==> r["userAgent"] == Str(o.userAgent)
    ensures ProxySpelledOut(r, o.proxy)
  {
    var proxied := ApplyProxy(Website(o.pageUrl, o.siteKey, o.invisible), o.proxy, "HCaptchaTask");
    WebsiteSurvivesProxy(o.pageUrl, o.siteKey, o.invisible, o.proxy, "HCaptchaTask");
    assert !ProxyField("userAgent");
    PutIf(proxied, o.userAgent != "", "userAgent", Str(o.userAgent))
  }

  /** The HCaptcha task. An enterprise payload with RQData also sets the top-level `data`. */
  function HCaptchaTask(o: HCaptchaOptions): (r: Object)
    ensures r.Keys ==
              {"websiteURL", "websiteKey", "isInvisible"} + ProxyKeys(o.proxy)
              + KeyIf(o.userAgent != "", "userAgent")
              + KeyIf(o.enterprisePayload.Some? && o.enterprisePayload.value.rqData != "", "data")
              + KeyIf(o.enterprisePayload.Some?, "enterprisePayload")
    ensures r["websiteURL"] == Str(o.pageUrl) && r["websiteKey"] == Str(o.siteKey) && r["isInvisible"] == Bool(o.invisible)
    ensures r["type"] == Str(TaskType("HCaptchaTask", o.proxy))
    ensures o.userAgent != "" ==> r["userAgent"] == Str(o.userAgent)
    ensures o.enterprisePayload.Some? ==>
              && r["enterprisePayload"] == Obj(EnterprisePayload(o.enterprisePayload.value))
              && (o.enterprisePayload.value.rqData != "" ==> r["data"] == Str(o.enterprisePayload.value.rqData))
  {
    var typed := HCaptchaTyped(o);
    var ep := o.enterprisePayload;
    var withData := PutIf(typed, ep.Some? && ep.value.rqData != "", "data", if ep.Some? then Str(ep.value.rqData) else Null);
    PutIf(withData, ep.Some?, "enterprisePayload", if ep.Some? then Obj(EnterprisePayload(ep.value)) else Null)
  }

  /** The hCaptcha task spells out the proxy it was given. */
  lemma HCaptchaTaskProxy(o: HCaptchaOptions)
    ensures ProxySpelledOut(HCaptchaTask(o), o.proxy)
  {
    var typed := HCaptchaTyped(o);
    var ep := o.enterprisePayload;
    var withData := PutIf(typed, ep.Some? && ep.value.rqData != "", "data", if ep.Some? then Str(ep.value.rqData) else Null);
    PutKeepsProxy(typed, o.proxy, ep.Some? && ep.value.rqData != "", "data", if ep.Some? then Str(ep.value.rqData) else Null);
    PutKeepsProxy(withData, o.proxy, ep.Some?, "enterprisePayload", if ep.Some? then Obj(EnterprisePayload(ep.value)) else Null);
  }

  /** The FunCaptcha task: the user agent is always sent, even when empty. */
  function FunCaptchaTask(o: FunCaptchaOptions): (r: Object)
    ensures r.Keys == {"websiteURL", "websitePublicKey", "funcaptchaApiJSSubdomain", "userAgent"} + ProxyKeys(o.proxy)
    ensures r["websiteURL"] == Str(o.pageUrl) && r["websitePublicKey"] == Str(o.publicKey)
    ensures r["funcaptchaApiJSSubdomain"] == Str(o.subdomain)
    ensures r["type"] == Str(TaskType("FunCaptchaTask", o.proxy))
    ensures r["userAgent"] == Str(o.userAgent)
  {
    var base := map["websiteURL" := Str(o.pageUrl), "websitePublicKey" := Str(o.publicKey), "funcaptchaApiJSSubdomain" := Str(o.subdomain)];
    assert !ProxyField("websiteURL") && !ProxyField("websitePublicKey") && !ProxyField("funcaptchaApiJSSubdomain");
    assert !ProxyField("userAgent");
    ApplyProxy(base, o.proxy, "FunCaptchaTask")["userAgent" := Str(o.userAgent)]
  }

  /** The FunCaptcha task spells out the proxy it was given. */
  lemma FunCaptchaTaskProxy(o: FunCaptchaOptions)
    ensures ProxySpelledOut(FunCaptchaTask(o), o.proxy)
  {
    var base := map["websiteURL" := Str(o.pageUrl), "websitePublicKey" := Str(o.publicKey), "funcaptchaApiJSSubdomain" := Str(o.subdomain)];
    PutKeepsProxy(ApplyProxy(base, o.proxy, "FunCaptchaTask"), o.proxy, true, "userAgent", Str(o.userAgent));
  }

  /** The RecaptchaV3 task: always proxyless, every option sent as given. */
  function RecaptchaV3Task(o: RecaptchaV3Options): (r: Object)
    ensures r.Keys == {"type", "websiteURL", "websiteKey", "minScore", "pageAction", "isEnterprise"}
    ensures r["type"] == Str("RecaptchaV3TaskProxyless")
    ensures r["websiteURL"] == Str(o.pageUrl) && r["websiteKey"] == Str(o.siteKey)
    ensures r["minScore"] == Float(o.minScore) && r["pageAction"] == Str(o.action) && r["isEnterprise"] == Bool(o.enterprise)
  {
    map[
      "type" := Str("RecaptchaV3TaskProxyless"),
      "websiteURL" := Str(o.pageUrl),
      "websiteKey" := Str(o.siteKey),
      "minScore" := Float(o.minScore),
      "pageAction" := Str(o.action),
      "isEnterprise" := Bool(o.enterprise)]
  }

  // ---------------------------------------------------------------- balance

  /** The balance request: the getBalance path with the API key as clientKey, nothing else. */
  function BalanceRequest(c: Config, preferred: string): (r: Request)
    ensures r.url == Domain(preferred, c.forcedDomain) + "/getBalance"
    ensures r.params.Keys == {"clientKey"}
    ensures r.params["clientKey"] == Str(c.apiKey)
  {
    Request(Domain(preferred, c.forcedDomain) + "/getBalance", map["clientKey" := Str(c.apiKey)])
  }

  predicate BalanceReplyWellTyped(reply: Reply<Object>) {
    reply.Delivered? ==>
      if Given(reply.body, "errorDescription") then reply.body["errorDescription"].Str?
      else "balance" in reply.body ==> reply.body["balance"].Float?
  }

  /** GetBalance: a transport failure, the backend's errorDescription, "no balance", or the balance. */
  function GetBalance(preferred: string, c: Config, w: World): (r: Result<real, Error>)
    requires BalanceReplyWellTyped(w.json.balance(BalanceRequest(c, preferred)))
    ensures var reply := w.json.balance(BalanceRequest(c, preferred));
            && (reply.Unreachable? ==> r == Failure(Transport(reply.reason)))
            && (reply.Delivered? && Given(reply.body, "errorDescription") ==> r == Failure(Remote(reply.body["errorDescription"].s)))
            && (reply.Delivered? && !Given(reply.body, "errorDescription") && "balance" !in reply.body ==> r == Failure(Protocol("no balance")))
            && (r.Success? <==> reply.Delivered? && !Given(reply.body, "errorDescription") && "balance" in reply.body)
            && (r.Success? ==> r.value == reply.body["balance"].x)
  {
    match w.json.balance(BalanceRequest(c, preferred))
    case Unreachable(why) => Failure(Transport(why))
    case Delivered(body) =>
      if Given(body, "errorDescription") then Failure(Remote(body["errorDescription"].s))
      else if "balance" !in body then Failure(Protocol("no balance"))
      else Success(body["balance"].x)
  }

  // ---------------------------------------------------------------- the method set

  /** antiCaptchaMethods: every capability is provided, each reading the solver's
      settings at call time. */
  function Methods(preferred: string): (m: SolveMethods)
    ensures m.getBalance.Some? && m.recaptchaV2.Some? && m.recaptchaV3.Some? && m.hCaptcha.Some? && m.funCaptcha.Some?
  {
    SolveMethods(
      Some((c: Config, w: World) requires BalanceReplyWellTyped(w.json.balance(BalanceRequest(c, preferred))) =>
        GetBalance(preferred, c, w)),
      Some((c: Config, o: RecaptchaV2Options, w: World) requires SolveWellTyped(c, preferred, RecaptchaV2Task(o), w) =>
        Solve(c, preferred, RecaptchaV2Task(o), w)),
      Some((c: Config, o: RecaptchaV3Options, w: World) requires SolveWellTyped(c, preferred, RecaptchaV3Task(o), w) =>
        Solve(c, preferred, RecaptchaV3Task(o), w)),
      Some((c: Config, o: HCaptchaOptions, w: World) requires SolveWellTyped(c, preferred, HCaptchaTask(o), w) =>
        Solve(c, preferred, HCaptchaTask(o), w)),
      Some((c: Config, o: FunCaptchaOptions, w: World) requires SolveWellTyped(c, preferred, FunCaptchaTask(o), w) =>
        Solve(c, preferred, FunCaptchaTask(o), w)))
  }

  /** Through the Solver facade, each solve is one createTask-and-poll round of
      its own kind of task, and the balance is the backend's getBalance. */
  lemma MethodsForward(preferred: string, c: Config, w: World, v2: RecaptchaV2Options)
    ensures var m := Methods(preferred);
            && (BalanceReplyWellTyped(w.json.balance(BalanceRequest(c, preferred))) ==>
                  Captchas.GetBalance(m, c, w) == GetBalance(preferred, c, w))
            && (SolveWellTyped(c, preferred, RecaptchaV2Task(v2), w) ==>
                  Captchas.RecaptchaV2(m, c, v2, w) == Solve(c, preferred, RecaptchaV2Task(v2), w))
  {
  }

  /** Through the facade, a reCAPTCHA v3 solve sends the v3 task. */
  lemma RecaptchaV3Forwards(preferred: string, c: Config, w: World, v3: RecaptchaV3Options)
    requires SolveWellTyped(c, preferred, RecaptchaV3Task(v3), w)
    ensures Captchas.RecaptchaV3(Methods(preferred), c, v3, w) == Solve(c, preferred, RecaptchaV3Task(v3), w)
  {
  }

  /** Through the facade, an hCaptcha solve sends the hCaptcha task. */
  lemma HCaptchaForwards(preferred: string, c: Config, w: World, h: HCaptchaOptions)
    requires SolveWellTyped(c, preferred, HCaptchaTask(h), w)
    ensures Captchas.HCaptcha(Methods(preferred), c, h, w) == Solve(c, preferred, HCaptchaTask(h), w)
  {
  }

  /** Through the facade, a FunCaptcha solve sends the FunCaptcha task. */
  lemma FunCaptchaForwards(preferred: string, c: Config, w: World, f: FunCaptchaOptions)
    requires SolveWellTyped(c, preferred, FunCaptchaTask(f), w)
    ensures Captchas.FunCaptcha(Methods(preferred), c, f, w) == Solve(c, preferred, FunCaptchaTask(f), w)
  {
  }
}

=== FILE: captchas.dfy ===
/** captchas.go: the normalised request options, the normalised solution, the
    record of optional capabilities a backend provides, and the facade that
    forwards to it. */
module Captchas {
  import opened Wrappers
  import opened Json
  import opened Common
  import opened Proxies

  /** The errors the library reports. Go only has error strings; the variant
      records which kind of failure produced the message. */
  datatype Error =
    | Remote(message: string)      // the backend's own error text, passed on verbatim
    | Protocol(message: string)    // a fixed message for a malformed or unexpected response
    | Transport(reason: string)    // the POST itself, or decoding its body, failed
    | Unsupported(message: string) // a configuration error: unknown service or missing capability
    | BadNumber(input: string)     // strconv.Atoi rejected the text

  /** The normalised result of a solve. `speed` is the elapsed milliseconds. */
  datatype Solution = Solution(
    text: string,
    taskId: int,
    speed: int,
    cookies: Option<map<string, string>>,
    cost: string,
    ip: string)

  /** A solution as a poll response first produces it, before the elapsed time is stamped on. */
  function Fresh(text: string, taskId: int, cost: string, ip: string): Solution {
    Solution(text, taskId, 0, None, cost, ip)
  }

  /** What one poll response means for the loop around it. */
  datatype Step = Continue | Finish(solution: Solution) | Abort(error: Error)

  /** Where a solve ends up. `Polling` is a loop that was still waiting when the
      scripted responses ran out; the program would keep polling. */
  datatype Outcome = Solved(solution: Solution) | Failed(error: Error) | Polling

  /** The outcome a terminal step settles on. */
  function Settle(s: Step): (o: Outcome)
    requires !s.Continue?
    ensures s.Finish? ==> o == Solved(s.solution)
    ensures s.Abort? ==> o == Failed(s.error)
  {
    match s
    case Finish(sol) => Solved(sol)
    case Abort(e) => Failed(e)
  }

  datatype RecaptchaV2Options = RecaptchaV2Options(
    siteKey: string,
    pageUrl: string,
    dataS: string,
    proxy: Option<Proxy>,
    userAgent: string,
    cookies: seq<(string, string)>, // in map iteration order; a nil map is empty
    invisible: bool,
    enterprise: Option<Object>)

  datatype RecaptchaV3Options = RecaptchaV3Options(
    pageUrl: string,
    siteKey: string,
    enterprise: bool,
    minScore: real,
    action: string)

  datatype FunCaptchaOptions = FunCaptchaOptions(
    pageUrl: string,
    publicKey: string,
    subdomain: string,
    proxy: Option<Proxy>,
    userAgent: string,
    data: string)

  datatype HCaptchaEnterprise = HCaptchaEnterprise(
    rqData: string,
    sentry: bool,
    apiEndpoint: string,
    endpoint: string,
    reportApi: string,
    assetHost: string,
    imgHost: string)

  datatype HCaptchaOptions = HCaptchaOptions(
    pageUrl: string,
    siteKey: string,
    userAgent: string,
    invisible: bool,
    proxy: Option<Proxy>,
    enterprisePayload: Option<HCaptchaEnterprise>)

  /** The Solver's public settings, which the adapters read at every call. */
  datatype Config = Config(updateDelay: int, verbose: bool, apiKey: string, forcedDomain: string)

  /** The replies one endpoint family gives during one call: the answer to the
      submission request, the answers of the successive polls (each round may
      answer differently, and each answer depends on the request that round
      sends), and the answer to a balance request. */
  datatype Script<B> = Script(submit: Request -> Reply<B>, polls: seq<Request -> Reply<B>>, balance: Request -> Reply<B>)

  /** Everything outside the library that a call observes: the JSON endpoints of a
      task-based backend, the text endpoints of the legacy backend, the clock
      reading taken between submission and result, and strconv.ParseFloat. */
  datatype World = World(
    json: Script<Object>,
    text: Script<string>,
    elapsedMs: int,
    parseFloat: string -> Option<real>)

  /** solveMethods: each capability may be missing. A capability may demand
      something of the world it is called in (responses of the expected shapes). */
  datatype SolveMethods = SolveMethods(
    getBalance: Option<(Config, World) --> Result<real, Error>>,
    recaptchaV2: Option<(Config, RecaptchaV2Options, World) --> Outcome>,
    recaptchaV3: Option<(Config, RecaptchaV3Options, World) --> Outcome>,
    hCaptcha: Option<(Config, HCaptchaOptions, World) --> Outcome>,
    funCaptcha: Option<(Config, FunCaptchaOptions, World) --> Outcome>)

  /** Solver.GetBalance: a fixed error when the backend has no balance call,
      otherwise exactly what the backend's call returns. */
  function GetBalance(m: SolveMethods, c: Config, w: World): (r: Result<real, Error>)
    requires m.getBalance.Some? ==> m.getBalance.value.requires(c, w)
    ensures m.getBalance.None? ==> r == Failure(Unsupported("service does not support getBalance"))
    ensures m.getBalance.Some? ==> r == m.getBalance.value(c, w)
  {
    match m.getBalance
    case None => Failure(Unsupported("service does not support getBalance"))
    case Some(f) => f(c, w)
  }

  /** Solver.RecaptchaV2 */
  function RecaptchaV2(m: SolveMethods, c: Config, o: RecaptchaV2Options, w: World): (r: Outcome)
    requires m.recaptchaV2.Some? ==> m.recaptchaV2.value.requires(c, o, w)
    ensures m.recaptchaV2.None? ==> r == Failed(Unsupported("service does not support recaptchaV2"))
    ensures m.recaptchaV2.Some? ==> r == m.recaptchaV2.value(c, o, w)
  {
    match m.recaptchaV2
    case None => Failed(Unsupported("service does not support recaptchaV2"))
    case Some(f) => f(c, o, w)
  }

  /** Solver.RecaptchaV3 */
  function RecaptchaV3(m: SolveMethods, c: Config, o: RecaptchaV3Options, w: World): (r: Outcome)
    requires m.recaptchaV3.Some? ==> m.recaptchaV3.value.requires(c, o, w)
    ensures m.recaptchaV3.None? ==> r == Failed(Unsupported("service does not support recaptchaV3"))
    ensures m.recaptchaV3.Some? ==> r == m.recaptchaV3.value(c, o, w)
  {
    match m.recaptchaV3
    case None => Failed(Unsupported("service does not support recaptchaV3"))
    case Some(f) => f(c, o, w)
  }

  /** Solver.HCaptcha */
  function HCaptcha(m: SolveMethods, c: Config, o: HCaptchaOptions, w: World): (r: Outcome)
    requires m.hCaptcha.Some? ==> m.hCaptcha.value.requires(c, o, w)
    ensures m.hCaptcha.None? ==> r == Failed(Unsupported("service does not support hCaptcha"))
    ensures m.hCaptcha.Some? ==> r == m.hCaptcha.value(c, o, w)
  {
    match m.hCaptcha
    case None => Failed(Unsupported("service does not support hCaptcha"))
    case Some(f) => f(c, o, w)
  }

  /** Solver.FunCaptcha */
  function FunCaptcha(m: SolveMethods, c: Config, o: FunCaptchaOptions, w: World): (r: Outcome)
    requires m.funCaptcha.Some? ==> m.funCaptcha.value.requires(c, o, w)
    ensures m.funCaptcha.None? ==> r == Failed(Unsupported("service does not support funCaptcha"))
    ensures m.funCaptcha.Some? ==> r == m.funCaptcha.value(c, o, w)
  {
    match m.funCaptcha
    case None => Failed(Unsupported("service does not support funCaptcha"))
    case Some(f) => f(c, o, w)
  }

  /** A missing capability fails without looking at the world: no request is made. */
  lemma UnsupportedTouchesNothing(m: SolveMethods, c: Config, o: RecaptchaV2Options, w1: World, w2: World)
    requires m.recaptchaV2.None?
    ensures RecaptchaV2(m, c, o, w1) == RecaptchaV2(m, c, o, w2)
    ensures RecaptchaV2(m, c, o, w1).Failed? && RecaptchaV2(m, c, o, w1).error.Unsupported?
  {
  }
}

=== FILE: common.dfy ===
/** Helpers shared by both protocol adapters: the transport seen as an oracle,
    the base-URL rule both adapters copy, and the string assembly of common.go. */
module Common {
  import opened Wrappers
  import opened StringOps
  import opened Json

  /** What a POST hands back: a transport or decoding failure, or a body
      (a decoded JSON object for postJSON, the raw text for postQuery). */
  datatype Reply<B> = Unreachable(reason: string) | Delivered(body: B)

  /** A request as the adapters hand it to the transport. */
  datatype Request = Request(url: string, params: Object)

  /** The replies the successive poll rounds give when each round sends `req`. */
  function Answers<B>(polls: seq<Request -> Reply<B>>, req: Request): (r: seq<Reply<B>>)
    ensures |r| == |polls|
    ensures forall i :: 0 <= i < |polls| ==> r[i] == polls[i](req)
  {
    seq(|polls|, i requires 0 <= i < |polls| => polls[i](req))
  }

  /** The scheme-less host the adapter talks to: the forced domain when one is set. */
  function BaseHost(preferred: string, forced: string): string {
    if forced != "" then forced else preferred
  }

  /** The base URL both adapters recompute on every call. A host holding a colon
      or exactly four dots is taken for an address and gets `http://`; any other
      host gets `https://`. A forced domain that already carries a scheme is not
      recognised as such: it holds a colon, so it gets a second `http://`. */
  function Domain(preferred: string, forced: string): (r: string)
    ensures var base := BaseHost(preferred, forced);
            && (r == "http://" + base || r == "https://" + base)
            && (IsPrefix("http://", r) <==> ':' in base || multiset(base)['.'] == 4)
  {
    var base := BaseHost(preferred, forced);
    ContainsChar(base, ':');
    if Contains(base, ":") || Count(base, '.') == 4 then
      var r := "http://" + base;
      assert r[..7] == "http://" && r[7..] == base;
      assert r[4] != "https://"[4];
      r
    else
      var r := "https://" + base;
      assert r[..8] == "https://" && r[8..] == base;
      assert r[4] != "http://"[4];
      r
  }

  /** A host with no colon and other than four dots is served over https. */
  lemma DomainOfHost(preferred: string, forced: string)
    requires var base := BaseHost(preferred, forced); ':' !in base && multiset(base)['.'] != 4
    ensures Domain(preferred, forced) == "https://" + BaseHost(preferred, forced)
  {
    var base := BaseHost(preferred, forced);
    assert IsPrefix("http://", "http://" + base);
  }

  /** A host with a colon or four dots is taken for an address and gets http. */
  lemma DomainOfAddress(preferred: string, forced: string)
    requires var base := BaseHost(preferred, forced); ':' in base || multiset(base)['.'] == 4
    ensures Domain(preferred, forced) == "http://" + BaseHost(preferred, forced)
  {
    var base := BaseHost(preferred, forced);
    assert ("https://" + base)[4] == 's';
  }

  /** A dotted quad has three dots, not four: it is not taken for an address and is served over https. */
  lemma DottedQuadIsHost(a: string, b: string, c: string, d: string, preferred: string)
    requires forall i :: 0 <= i < 4 ==> '.' !in [a, b, c, d][i] && ':' !in [a, b, c, d][i]
    ensures var quad := Join([a, b, c, d], ".");
            Domain(preferred, quad) == "https://" + quad
  {
    HostName([a, b, c, d], preferred, Join([a, b, c, d], "."));
  }

  /** A forced host with a port is taken for an address and gets http. */
  lemma HostWithPortIsAddress(host: string, port: string, preferred: string)
    ensures Domain(preferred, host + ":" + port) == "http://" + host + ":" + port
  {
    var forced := host + ":" + port;
    assert forced[|host|] == ':';
    assert BaseHost(preferred, forced) == forced;
    DomainOfAddress(preferred, forced);
  }

  /** A forced domain written with its scheme is not recognised as a URL: its
      colon makes it an address, so it gets a second scheme. */
  lemma SchemeIsDoubled(scheme: string, h: string, preferred: string)
    requires scheme == "http" || scheme == "https"
    ensures Domain(preferred, scheme + "://" + h) == "http://" + scheme + "://" + h
  {
    var forced := scheme + "://" + h;
    assert forced[|scheme|] == ':';
    assert BaseHost(preferred, forced) == forced;
    DomainOfAddress(preferred, forced);
    assert "http://" + forced == "http://" + scheme + "://" + h;
  }

  /** A host spelled as labels without dots or colons, and other than five of them, is served over https. */
  lemma HostName(labels: seq<string>, preferred: string, forced: string)
    requires |labels| > 0 && |labels| != 5
    requires forall i :: 0 <= i < |labels| ==> '.' !in labels[i] && ':' !in labels[i]
    requires BaseHost(preferred, forced) == Join(labels, ".")
    ensures Domain(preferred, forced) == "https://" + BaseHost(preferred, forced)
  {
    DotsOfJoin(labels);
    DomainOfHost(preferred, forced);
  }

  /** `parts` separated by `sep`, with nothing after the last part. */
  function Join(parts: seq<string>, sep: string): string
    decreases |parts|
  {
    if |parts| == 0 then ""
    else if |parts| == 1 then parts[0]
    else parts[0] + sep + Join(parts[1..], sep)
  }

  /** The accumulation loop of common.go: every part followed by `sep`, appended in order. */
  function Terminated(parts: seq<string>, sep: string): string
    decreases |parts|
  {
    if |parts| == 0 then "" else Terminated(parts[..|parts| - 1], sep) + parts[|parts| - 1] + sep
  }

  lemma {:induction false} JoinSnoc(parts: seq<string>, last: string, sep: string)
    requires |parts| > 0
    ensures Join(parts + [last], sep) == Join(parts, sep) + sep + last
    decreases |parts|
  {
    if |parts| > 1 {
      assert (parts + [last])[1..] == parts[1..] + [last];
      JoinSnoc(parts[1..], last, sep);
    }
  }

  /** Appending `sep` after every part yields the joined parts plus one trailing `sep`. */
  lemma {:induction false} TerminatedIsJoin(parts: seq<string>, sep: string)
    requires |parts| > 0
    ensures Terminated(parts, sep) == Join(parts, sep) + sep
    decreases |parts|
  {
    if |parts| > 1 {
      var init := parts[..|parts| - 1];
      TerminatedIsJoin(init, sep);
      JoinSnoc(init, parts[|parts| - 1], sep);
      assert init + [parts[|parts| - 1]] == parts;
    }
  }

  /** Labels without dots joined by dots: one dot between each pair, and no
      character that is in no label except the dot. */
  lemma {:induction false} DotsOfJoin(labels: seq<string>)
    requires |labels| > 0
    requires forall i :: 0 <= i < |labels| ==> '.' !in labels[i] && ':' !in labels[i]
    ensures multiset(Join(labels, "."))['.'] == |labels| - 1
    ensures ':' !in Join(labels, ".")
    decreases |labels|
  {
    if |labels| == 1 {
      assert multiset(labels[0])['.'] == 0;
    } else {
      DotsOfJoin(labels[1..]);
      assert Join(labels, ".") == labels[0] + "." + Join(labels[1..], ".");
      assert multiset(labels[0])['.'] == 0;
    }
  }

  /** Sum of the lengths of `parts`. */
  function TotalLength(parts: seq<string>): nat
    decreases |parts|
  {
    if |parts| == 0 then 0 else |parts[0]| + TotalLength(parts[1..])
  }

  lemma {:induction false} JoinLength(parts: seq<string>, sep: string)
    requires |parts| > 0
    ensures |Join(parts, sep)| == TotalLength(parts) + |sep| * (|parts| - 1)
    decreases |parts|
  {
    if |parts| > 1 {
      JoinLength(parts[1..], sep);
    }
  }

  /** One cookie rendered as `k=v`. */
  function CookieEntry(kv: (string, string)): string {
    kv.0 + "=" + kv.1
  }

  function CookieEntries(cookies: seq<(string, string)>): (r: seq<string>)
    ensures |r| == |cookies|
    ensures forall i :: 0 <= i < |cookies| ==> r[i] == CookieEntry(cookies[i])
  {
    seq(|cookies|, i requires 0 <= i < |cookies| => CookieEntry(cookies[i]))
  }

  /** cookiesToString. The cookie map is given in the order Go's map iteration
      visits it. The output is the `k=v` entries separated by `"; "`, with no
      separator after the last one, and the empty string for no cookies. */
  function CookiesToString(cookies: seq<(string, string)>): (r: string)
    ensures |cookies| == 0 ==> r == ""
    ensures |cookies| > 0 ==> r == Join(CookieEntries(cookies), "; ")
  {
    var entries := CookieEntries(cookies);
    var t := Terminated(entries, "; ");
    if |t| > 0 then
      TerminatedIsJoin(entries, "; ");
      t[..|t| - 2]
    else
      t
  }

  /** Sum over the cookies of `|k| + |v| + 1`. */
  function CookiesWeight(cookies: seq<(string, string)>): nat
    decreases |cookies|
  {
    if |cookies| == 0 then 0 else |cookies[0].0| + |cookies[0].1| + 1 + CookiesWeight(cookies[1..])
  }

  lemma {:induction false} EntriesLength(cookies: seq<(string, string)>)
    ensures TotalLength(CookieEntries(cookies)) == CookiesWeight(cookies)
    decreases |cookies|
  {
    if |cookies| > 0 {
      assert CookieEntries(cookies)[1..] == CookieEntries(cookies[1..]);
      EntriesLength(cookies[1..]);
    }
  }

  /** The length of the cookie header: the entries' `k=v` lengths plus a two-character separator between neighbours. */
  lemma CookiesLength(cookies: seq<(string, string)>)
    requires |cookies| > 0
    ensures |CookiesToString(cookies)| == CookiesWeight(cookies) + 2 * (|cookies| - 1)
  {
    JoinLength(CookieEntries(cookies), "; ");
    EntriesLength(cookies);
  }

  /** The weight of two runs of cookies is the sum of their weights. */
  lemma {:induction false} WeightAppend(p: seq<(string, string)>, q: seq<(string, string)>)
    ensures CookiesWeight(p + q) == CookiesWeight(p) + CookiesWeight(q)
    decreases |p|
  {
    if |p| == 0 {
      assert p + q == q;
    } else {
      assert (p + q)[1..] == p[1..] + q;
      WeightAppend(p[1..], q);
    }
  }

  /** Taking one cookie out of a run takes its weight out of the run's weight. */
  lemma WeightRemove(b: seq<(string, string)>, j: nat)
    requires j < |b|
    ensures CookiesWeight(b) == |b[j].0| + |b[j].1| + 1 + CookiesWeight(b[..j] + b[j + 1..])
  {
    var before, after := b[..j], b[j + 1..];
    assert b == before + [b[j]] + after;
    WeightAppend(before + [b[j]], after);
    WeightAppend(before, [b[j]]);
    WeightAppend(before, after);
  }

  /** Taking one occurrence of `x` out of two runs with the same cookies leaves
      runs with the same cookies. */
  lemma RemoveKeepsMultiset(a: seq<(string, string)>, b: seq<(string, string)>, j: nat)
    requires multiset(a) == multiset(b) && |a| > 0 && j < |b| && b[j] == a[0]
    ensures multiset(a[1..]) == multiset(b[..j] + b[j + 1..])
  {
    var before, after := b[..j], b[j + 1..];
    assert b == before + [b[j]] + after;
    assert a == [a[0]] + a[1..];
    var m, n := multiset(a[1..]), multiset(before + after);
    var one := multiset([a[0]]);
    assert multiset(a) == one + m;
    assert multiset(b) == multiset(before) + one + multiset(after);
    assert n == multiset(before) + multiset(after);
    forall y ensures m[y] == n[y] {
      assert multiset(a)[y] == one[y] + m[y];
      assert multiset(b)[y] == multiset(before)[y] + one[y] + multiset(after)[y];
    }
  }

  /** The weight of the cookies does not depend on their order. */
  lemma {:induction false} WeightOrderFree(a: seq<(string, string)>, b: seq<(string, string)>)
    requires multiset(a) == multiset(b)
    ensures CookiesWeight(a) == CookiesWeight(b)
    decreases |a|
  {
    if |a| == 0 {
      assert |b| == |multiset(b)| == 0;
    } else {
      assert a[0] in multiset(a);
      var j :| 0 <= j < |b| && b[j] == a[0];
      RemoveKeepsMultiset(a, b, j);
      WeightOrderFree(a[1..], b[..j] + b[j + 1..]);
      WeightRemove(b, j);
    }
  }

  /** Any two orders in which Go's map iteration may visit the same cookies give
      headers of the same length. */
  lemma CookiesLengthOrderFree(a: seq<(string, string)>, b: seq<(string, string)>)
    requires multiset(a) == multiset(b)
    ensures |CookiesToString(a)| == |CookiesToString(b)|
  {
    assert |a| == |multiset(a)| == |multiset(b)| == |b|;
    if |a| > 0 {
      CookiesLength(a);
      CookiesLength(b);
      WeightOrderFree(a, b);
    }
  }

  /** How postQuery renders one value: strings as they are, ints in decimal,
      float64 through `%.3f` (supplied as `fixed3`), anything else as "". */
  function Render(v: Value, fixed3: real -> string): (r: string)
    ensures v.Str? ==> r == v.s
    ensures v.Int? && IntMin <= v.i <= IntMax ==> Atoi(r) == Some(v.i)
    ensures !(v.Str? || v.Int? || v.Float?) ==> r == ""
  {
    match v
    case Str(s) => s
    case Int(i) =>
      if IntMin <= i <= IntMax then AtoiItoa(i); Itoa(i) else Itoa(i)
    case Float(x) => fixed3(x)
    case _ => ""
  }

  function QueryEntries(data: seq<(string, Value)>, escape: string -> string, fixed3: real -> string): (r: seq<string>)
    ensures |r| == |data|
    ensures forall i :: 0 <= i < |data| ==>
              r[i] == escape(data[i].0) + "=" + escape(Render(data[i].1, fixed3))
  {
    seq(|data|, i requires 0 <= i < |data| => escape(data[i].0) + "=" + escape(Render(data[i].1, fixed3)))
  }

  /** The query-string assembly of postQuery, with url.QueryEscape supplied as
      `escape`. The parameter map is given in iteration order; `None` is a nil map.
      A nil or empty map gives the empty string; otherwise `?` is followed by the
      `k=v` pairs separated by `&`, with no `&` after the last pair. */
  function QueryString(data: Option<seq<(string, Value)>>, escape: string -> string, fixed3: real -> string): (r: string)
    ensures data.None? || |data.value| == 0 ==> r == ""
    ensures data.Some? && |data.value| > 0 ==> r == "?" + Join(QueryEntries(data.value, escape, fixed3), "&")
  {
    match data
    case None => ""
    case Some(pairs) =>
      var entries := QueryEntries(pairs, escape, fixed3);
      var t := Terminated(entries, "&");
      if |t| > 0 then
        TerminatedIsJoin(entries, "&");
        "?" + t[..|t| - 1]
      else
        t
  }
}

=== FILE: json.dfy ===
/** The dynamically typed values that travel in request and response bodies:
    Go's `interface{}` as the library builds it and as encoding/json decodes it. */
module Json {

  /** `Int` is a Go `int` the library puts into a payload; `Float` is a Go
      `float64`, which is also what every decoded JSON number becomes. Floats are
      carried as exact reals and never computed with. */
  datatype Value =
    | Null
    | Bool(b: bool)
    | Int(i: int)
    | Float(x: real)
    | Str(s: string)
    | Arr(items: seq<Value>)
    | Obj(fields: map<string, Value>)

  /** A JSON object, Go's `map[string]interface{}`. */
  type Object = map<string, Value>

  /** Indexing a Go map: a missing key reads as nil, like a JSON null. */
  function Get(o: Object, k: string): (v: Value)
    ensures k !in o ==> v == Null
    ensures k in o ==> v == o[k]
  {
    if k in o then o[k] else Null
  }

  /** The key is present with a non-nil value: Go's `v, ok := m[k]; ok && v != nil`. */
  predicate Given(o: Object, k: string) {
    Get(o, k) != Null
  }

  /** `{k}` when `cond` holds, else nothing. */
  function KeyIf(cond: bool, k: string): set<string> {
    if cond then {k} else {}
  }

  /** The optional-field idiom of the payload builders, `if cond { m[k] = v }`:
      sets `k` to `v` when `cond` holds; every other key keeps its value. */
  function PutIf(o: Object, cond: bool, k: string, v: Value): (r: Object)
    ensures r.Keys == o.Keys + KeyIf(cond, k)
    ensures cond ==> r[k] == v
    ensures forall j :: j in o && (j != k || !cond) ==> r[j] == o[j]
  {
    if cond then o[k := v] else o
  }
}

=== FILE: proxy.dfy ===
/** proxy.go: the upstream proxy a caller may hand to a captcha task. */
module Proxies {
  import opened Wrappers
  import opened StringOps

  const HttpType: string := "http"
  const HttpsType: string := "https"
  const Socks4Type: string := "socks4"
  const Socks5Type: string := "socks5"

  /** The four proxy types the library recognises. */
  predicate KnownType(t: string) {
    t == HttpType || t == HttpsType || t == Socks4Type || t == Socks5Type
  }

  datatype Logon = Logon(username: string, password: string)

  /** A proxy: either one NewProxy built, or the zero value a caller can write
      as a struct literal, whose type is empty. Any type is allowed here. */
  datatype Proxy = Proxy(address: string, port: int, pType: string, login: Option<Logon>)

  /** How NewProxy normalises the type it is given: lower case, then trimmed. */
  function NormalizeType(t: string): string {
    TrimSpace(ToLower(t))
  }

  /** NewProxy: a proxy exactly when the normalised type is one of the four known
      ones, storing that normalised type and the other arguments as given. */
  function NewProxy(t: string, address: string, port: int, login: Option<Logon>): (r: Option<Proxy>)
    ensures r.Some? <==> KnownType(NormalizeType(t))
    ensures r.Some? ==> r.value == Proxy(address, port, NormalizeType(t), login)
  {
    var n := NormalizeType(t);
    if !KnownType(n) then None else Some(Proxy(address, port, n, login))
  }

  /** A constructed proxy carries a canonical type: constructing again from it changes nothing. */
  lemma NewProxyTypeIsCanonical(t: string, address: string, port: int, login: Option<Logon>)
    requires NewProxy(t, address, port, login).Some?
    ensures var p := NewProxy(t, address, port, login).value;
            KnownType(p.pType) && NewProxy(p.pType, address, port, login) == Some(p)
  {
    var p := NewProxy(t, address, port, login).value;
    NormalizeKeepsLowerWord(p.pType);
  }

  /** A lower-case word without surrounding white space is its own normal form. */
  lemma NormalizeKeepsLowerWord(s: string)
    requires KnownType(s)
    ensures ToLower(s) == s && NormalizeType(s) == s
  {
    var w := s;
    if s == HttpType {
      w := "http";
    } else if s == HttpsType {
      w := "https";
    } else if s == Socks4Type {
      w := "socks4";
    } else {
      w := "socks5";
    }
    assert forall i | 0 <= i < |w| :: 'a' <= w[i] <= 'z' || '0' <= w[i] <= '9';
    NormalFormOfWord(w);
  }

  lemma NormalFormOfWord(s: string)
    requires 0 < |s|
    requires forall i | 0 <= i < |s| :: 'a' <= s[i] <= 'z' || '0' <= s[i] <= '9'
    ensures ToLower(s) == s && NormalizeType(s) == s
  {
    var l := ToLower(s);
    forall i | 0 <= i < |s|
      ensures l[i] == s[i]
    {
      assert LowerChar(s[i]) == s[i];
    }
    assert l == s;
    assert !IsSpace(s[0]) && !IsSpace(s[|s| - 1]);
  }

  /** Construction does not care about letter case or surrounding white space. */
  lemma NewProxyIgnoresCaseAndPadding(sp: string, t: string, sp2: string, address: string, port: int, login: Option<Logon>)
    requires AllSpace(sp) && AllSpace(sp2)
    ensures NewProxy(sp + ToUpper(t) + sp2, address, port, login) == NewProxy(t, address, port, login)
  {
    ToLowerAppend(sp + ToUpper(t), sp2);
    ToLowerAppend(sp, ToUpper(t));
    ToLowerKeepsSpace(sp);
    ToLowerKeepsSpace(sp2);
    ToLowerIgnoresCase(t);
    TrimSpaceIgnoresPadding(sp, ToLower(t), sp2);
  }

  /** ProxyLogon.String: `user:pass@`, or "" for no logon. */
  function LogonString(l: Option<Logon>): (r: string)
    ensures l.None? ==> r == ""
    ensures l.Some? ==> r == l.value.username + ":" + l.value.password + "@"
  {
    match l
    case None => ""
    case Some(x) => x.username + ":" + x.password + "@"
  }

  /** Proxy.String: `user:pass@address:port`, `address:port` without a logon, "" for nil. */
  function ProxyString(p: Option<Proxy>): (r: string)
    ensures p.None? ==> r == ""
    ensures p.Some? ==> r == LogonString(p.value.login) + p.value.address + ":" + Itoa(p.value.port)
  {
    match p
    case None => ""
    case Some(x) => LogonString(x.login) + x.address + ":" + Itoa(x.port)
  }

  /** The rendering can be read back: it starts with the logon, and the text
      after its last colon parses as the port. */
  lemma ProxyStringReadsBack(p: Proxy)
    requires IntMin <= p.port <= IntMax
    ensures var s := ProxyString(Some(p));
            var n := |Itoa(p.port)|;
            && IsPrefix(LogonString(p.login), s)
            && n < |s| && s[|s| - n - 1] == ':' && ':' !in s[|s| - n..]
            && Atoi(s[|s| - n..]) == Some(p.port)
  {
    var s := ProxyString(Some(p));
    var head := LogonString(p.login) + p.address;
    var tail := Itoa(p.port);
    assert s == head + ":" + tail;
    assert s[|s| - |tail|..] == tail;
    assert s[..|LogonString(p.login)|] == LogonString(p.login);
    AtoiItoa(p.port);
  }
}

=== FILE: solver.dfy ===
/** solver.go: choosing a backend by service name. */
module Solvers {
  import opened Wrappers
  import opened StringOps
  import opened Captchas
  import AntiCaptcha
  import TwoCaptcha

  /** The service names the library knows, in the form formatService produces. */
  const AntiCaptchaService: string := "anticaptcha"
  const AnyCaptchaService: string := "anycaptcha"
  const CapSolverService: string := "capsolver"
  const TwoCaptchaService: string := "2captcha"
  const CapMonsterService: string := "capmonster"

  /** The adapter a service is served by, with the host it prefers: the JSON
      task API (acmethods.go) or the legacy text API (tcmethods.go). */
  datatype Backend = TaskApi(host: string) | LegacyApi(host: string)

  /** A solver: the public settings, the formatted service name, and its backend.
      A solver is only ever made by New, which always sets a backend. */
  datatype Solver = Solver(config: Config, service: string, backend: Backend)

  /** Every character is its own lower-case form. */
  predicate LowerCase(s: string) {
    forall i :: 0 <= i < |s| ==> LowerChar(s[i]) == s[i]
  }

  /** The cleaning part of formatService: lower case, then spaces and hyphens
      removed. A name already in that form is left as it is. */
  function Strip(s: string): (r: string)
    ensures ' ' !in r && '-' !in r && LowerCase(r)
    ensures ' ' !in s && '-' !in s && LowerCase(s) ==> r == s
  {
    var l := ToLower(s);
    var r := RemoveAll(RemoveAll(l, ' '), '-');
    assert multiset(r)[' '] == 0 && multiset(r)['-'] == 0;
    forall i | 0 <= i < |r| ensures LowerChar(r[i]) == r[i] {
      assert r[i] in multiset(r);
      assert r[i] in multiset(l);
      assert r[i] in l;
    }
    if ' ' !in s && '-' !in s && LowerCase(s) then
      LowerCaseIsLower(s);
      RemoveAllAbsent(s, ' ');
      RemoveAllAbsent(s, '-');
      r
    else
      r
  }

  lemma LowerCaseIsLower(s: string)
    requires LowerCase(s)
    ensures ToLower(s) == s
  {
    var l := ToLower(s);
    forall i | 0 <= i < |s| ensures l[i] == s[i] {
      assert LowerChar(s[i]) == s[i];
    }
  }

  /** The 2captcha name is already in formatted form. */
  lemma TwoCaptchaIsFormatted()
    ensures ' ' !in TwoCaptchaService && '-' !in TwoCaptchaService && LowerCase(TwoCaptchaService)
    ensures TwoCaptchaService != "rucaptcha"
  {
    var t := TwoCaptchaService;
    forall i | 0 <= i < |t| ensures LowerChar(t[i]) == t[i] && t[i] != ' ' && t[i] != '-' {
      assert '0' <= t[i] <= '9' || 'a' <= t[i] <= 'z';
    }
  }

  /** formatService: lower case, without spaces or hyphens; "rucaptcha" is an
      alias of "2captcha". */
  function FormatService(s: string): (r: string)
    ensures ' ' !in r && '-' !in r && LowerCase(r) && r != "rucaptcha"
    ensures r == (if Strip(s) == "rucaptcha" then TwoCaptchaService else Strip(s))
  {
    TwoCaptchaIsFormatted();
    if Strip(s) == "rucaptcha" then TwoCaptchaService else Strip(s)
  }

  /** Formatting a formatted name changes nothing. */
  lemma FormatServiceIdempotent(s: string)
    ensures FormatService(FormatService(s)) == FormatService(s)
  {
  }

  /** The letter case a name is written in does not matter. */
  lemma FormatServiceIgnoresCase(s: string)
    ensures FormatService(ToUpper(s)) == FormatService(s)
  {
    ToLowerIgnoresCase(s);
  }

  /** A space or a hyphen anywhere in a name does not matter. */
  lemma FormatServiceIgnoresSeparator(a: string, sep: char, b: string)
    requires sep == ' ' || sep == '-'
    ensures FormatService(a + [sep] + b) == FormatService(a + b)
  {
    ToLowerAppend(a + [sep], b);
    ToLowerAppend(a, [sep]);
    ToLowerAppend(a, b);
    assert ToLower([sep]) == [sep];
    RemoveSeparator(ToLower(a), sep, ToLower(b));
  }

  lemma RemoveSeparator(x: string, sep: char, y: string)
    requires sep == ' ' || sep == '-'
    ensures RemoveAll(RemoveAll(x + [sep] + y, ' '), '-') == RemoveAll(RemoveAll(x + y, ' '), '-')
  {
    if sep == ' ' {
      DropChar(x, ' ', y);
    } else {
      KeepChar(x, '-', ' ', y);
      RemoveAllAppend(x, y, ' ');
      DropChar(RemoveAll(x, ' '), '-', RemoveAll(y, ' '));
    }
  }

  /** A name whose letters lower-case, one by one, to a word `t` without
      spaces or hyphens is cleaned to `t`. */
  lemma StripsTo(s: string, t: string)
    requires |s| == |t| && forall i :: 0 <= i < |s| ==> LowerChar(s[i]) == t[i]
    requires ' ' !in t && '-' !in t
    ensures Strip(s) == t
  {
    assert ToLower(s) == t;
    LowerCaseIsLower(t);
    RemoveAllAbsent(t, ' ');
    RemoveAllAbsent(t, '-');
  }

  /** Such a name, other than rucaptcha, formats as `t`. */
  lemma FormatsAs(s: string, t: string)
    requires |s| == |t| && forall i :: 0 <= i < |s| ==> LowerChar(s[i]) == t[i]
    requires ' ' !in t && '-' !in t && t != "rucaptcha"
    ensures FormatService(s) == t
  {
    StripsTo(s, t);
  }

  /** The same with one space or hyphen between two parts of the name. */
  lemma SeparatedFormatsAs(a: string, sep: char, b: string, t: string)
    requires sep == ' ' || sep == '-'
    requires |a + b| == |t| && forall i :: 0 <= i < |a + b| ==> LowerChar((a + b)[i]) == t[i]
    requires ' ' !in t && '-' !in t && t != "rucaptcha"
    ensures FormatService(a + [sep] + b) == t
  {
    FormatServiceIgnoresSeparator(a, sep, b);
    FormatsAs(a + b, t);
  }

  lemma SeparatedSelects(n: string, a: string, sep: char, b: string, t: string)
    requires n == a + [sep] + b
    requires sep == ' ' || sep == '-'
    requires |a + b| == |t| && forall i :: 0 <= i < |a + b| ==> LowerChar((a + b)[i]) == t[i]
    requires ' ' !in t && '-' !in t && t != "rucaptcha"
    ensures Select(FormatService(n)) == Select(t)
  {
    SeparatedFormatsAs(a, sep, b, t);
  }

  /** "Anti-Captcha", as a caller may write it, selects anti-captcha. */
  lemma AntiCaptchaSpelling()
    ensures Select(FormatService("Anti-Captcha")) == Some(TaskApi("api.anti-captcha.com"))
  {
    var n := "Anti-Captcha";
    assert n == "Anti" + ['-'] + "Captcha";
    SeparatedSelects(n, "Anti", '-', "Captcha", AntiCaptchaService);
  }

  /** "AnyCaptcha" selects anycaptcha. */
  lemma AnyCaptchaSpelling()
    ensures Select(FormatService("AnyCaptcha")) == Some(TaskApi("api.anycaptcha.com"))
  {
    FormatsAs("AnyCaptcha", AnyCaptchaService);
    assert FormatService("AnyCaptcha") == AnyCaptchaService;
  }

  /** "Cap Monster", as a caller may write it, selects capmonster. */
  lemma CapMonsterSpelling()
    ensures Select(FormatService("Cap Monster")) == Some(TaskApi("api.capmonster.cloud"))
  {
    var n := "Cap Monster";
    assert n == "Cap" + [' '] + "Monster";
    SeparatedSelects(n, "Cap", ' ', "Monster", CapMonsterService);
  }

  /** "CapSolver" selects capsolver. */
  lemma CapSolverSpelling()
    ensures Select(FormatService("CapSolver")) == Some(TaskApi("api.capsolver.com"))
  {
    FormatsAs("CapSolver", CapSolverService);
    assert FormatService("CapSolver") == CapSolverService;
  }

  /** A name that cleans to "rucaptcha" selects the legacy backend. */
  lemma AliasSelects(n: string)
    requires Strip(n) == "rucaptcha"
    ensures Select(FormatService(n)) == Some(LegacyApi("2captcha.com"))
  {
  }

  /** "RuCaptcha" is the same service as 2captcha and selects the legacy backend. */
  lemma RuCaptchaSpelling()
    ensures Select(FormatService("RuCaptcha")) == Some(LegacyApi("2captcha.com"))
  {
    var n := "RuCaptcha";
    StripsTo(n, "rucaptcha");
    AliasSelects(n);
  }

  /** "2Captcha" selects the legacy backend. */
  lemma TwoCaptchaSpelling()
    ensures Select(FormatService("2Captcha")) == Some(LegacyApi("2captcha.com"))
  {
    FormatsAs("2Captcha", TwoCaptchaService);
    assert FormatService("2Captcha") == TwoCaptchaService;
  }

  /** The backend each known name selects, with its preferred host; nothing for any other name. */
  function Select(service: string): (b: Option<Backend>)
    ensures b.Some? <==>
              service == AntiCaptchaService || service == AnyCaptchaService || service == CapMonsterService
              || service == CapSolverService || service == TwoCaptchaService
    ensures b.Some? ==> (b.value.LegacyApi? <==> service == TwoCaptchaService)
    ensures service == AntiCaptchaService ==> b == Some(TaskApi("api.anti-captcha.com"))
    ensures service == AnyCaptchaService ==> b == Some(TaskApi("api.anycaptcha.com"))
    ensures service == CapMonsterService ==> b == Some(TaskApi("api.capmonster.cloud"))
    ensures service == CapSolverService ==> b == Some(TaskApi("api.capsolver.com"))
    ensures service == TwoCaptchaService ==> b == Some(LegacyApi("2captcha.com"))
  {
    if service == AntiCaptchaService then Some(TaskApi("api.anti-captcha.com"))
    else if service == AnyCaptchaService then Some(TaskApi("api.anycaptcha.com"))
    else if service == CapMonsterService then Some(TaskApi("api.capmonster.cloud"))
    else if service == CapSolverService then Some(TaskApi("api.capsolver.com"))
    else if service == TwoCaptchaService then Some(LegacyApi("2captcha.com"))
    else None
  }

  /** Solver.SetService, as the solver it leaves behind and the error it returns:
      the formatted name selects a backend and both are stored; an unknown name
      is an error and the solver is left exactly as it was. */
  function SetService(s: Solver, name: string): (r: (Solver, Option<Error>))
    ensures r.1.Some? <==> Select(FormatService(name)).None?
    ensures r.1.Some? ==> r.0 == s && r.1.value == Unsupported("that service isn't supported")
    ensures r.1.None? ==>
              && r.0.config == s.config
              && r.0.service == FormatService(name)
              && Some(r.0.backend) == Select(r.0.service)
  {
    var service := FormatService(name);
    match Select(service)
    case None => (s, Some(Unsupported("that service isn't supported")))
    case Some(b) => (Solver(s.config, service, b), None)
  }

  /** Solver.GetService */
  function GetService(s: Solver): string {
    s.service
  }

  /** GetService reports the formatted name a successful SetService stored;
      after an unknown name it reports what it reported before. */
  lemma GetServiceAfterSet(s: Solver, name: string)
    ensures SetService(s, name).1.None? ==> GetService(SetService(s, name).0) == FormatService(name)
    ensures SetService(s, name).1.Some? ==> GetService(SetService(s, name).0) == GetService(s)
  {
  }

  /** Setting the service a solver reports changes nothing. */
  lemma SetServiceRoundTrip(s: Solver, name: string)
    requires SetService(s, name).1.None?
    ensures var t := SetService(s, name).0;
            SetService(t, GetService(t)) == (t, None)
  {
    FormatServiceIdempotent(name);
  }

  /** Every spelling of "rucaptcha" selects the 2captcha backend and is reported as 2captcha. */
  lemma RuCaptchaIsTwoCaptcha(s: Solver, name: string)
    requires Strip(name) == "rucaptcha"
    ensures SetService(s, name) == (Solver(s.config, TwoCaptchaService, LegacyApi("2captcha.com")), None)
  {
  }

  /** The settings New starts from: 2000 ms between polls, verbose, no forced domain. */
  function Defaults(apiKey: string): Config {
    Config(2000, true, apiKey, "")
  }

  /** New: a solver with the default settings and the named service, or the
      service's error. */
  function New(name: string, apiKey: string): (r: Result<Solver, Error>)
    ensures r.Success? <==> Select(FormatService(name)).Some?
    ensures r.Failure? ==> r.error == Unsupported("that service isn't supported")
    ensures r.Success? ==>
              && r.value.config == Config(2000, true, apiKey, "")
              && r.value.service == FormatService(name)
              && Some(r.value.backend) == Select(r.value.service)
  {
    var (solver, err) := SetService(Solver(Defaults(apiKey), "", TaskApi("")), name);
    if err.Some? then Failure(err.value) else Success(solver)
  }

  /** The capabilities a backend provides. */
  function Methods(b: Backend): (m: SolveMethods)
    ensures m.getBalance.Some? && m.recaptchaV2.Some? && m.recaptchaV3.Some? && m.hCaptcha.Some? && m.funCaptcha.Some?
  {
    match b
    case TaskApi(host) => AntiCaptcha.Methods(host)
    case LegacyApi(host) => TwoCaptcha.Methods(host)
  }

  /** A solver's balance, through the facade: whatever its backend's balance call answers. */
  lemma GetBalanceForwards(s: Solver, w: World)
    requires s.backend.TaskApi? ==> AntiCaptcha.BalanceReplyWellTyped(w.json.balance(AntiCaptcha.BalanceRequest(s.config, s.backend.host)))
    ensures s.backend.TaskApi? ==>
              Captchas.GetBalance(Methods(s.backend), s.config, w) == AntiCaptcha.GetBalance(s.backend.host, s.config, w)
    ensures s.backend.LegacyApi? ==>
              Captchas.GetBalance(Methods(s.backend), s.config, w) == TwoCaptcha.GetBalance(s.backend.host, s.config, w)
  {
    if s.backend.TaskApi? {
      AntiCaptcha.MethodsForward(s.backend.host, s.config, w, RecaptchaV2Options("", "", "", None, "", [], false, None));
    } else {
      TwoCaptcha.MethodsForward(s.backend.host, s.config, w, RecaptchaV2Options("", "", "", None, "", [], false, None));
    }
  }

  /** A task-based solver's reCAPTCHA v2 solve, through the facade: the task adapter's
      solve of its reCAPTCHA v2 task. */
  lemma RecaptchaV2OnTaskApi(s: Solver, o: RecaptchaV2Options, w: World)
    requires s.backend.TaskApi? && AntiCaptcha.SolveWellTyped(s.config, s.backend.host, AntiCaptcha.RecaptchaV2Task(o), w)
    ensures Captchas.RecaptchaV2(Methods(s.backend), s.config, o, w)
            == AntiCaptcha.Solve(s.config, s.backend.host, AntiCaptcha.RecaptchaV2Task(o), w)
  {
    AntiCaptcha.MethodsForward(s.backend.host, s.config, w, o);
  }

  /** A task-based solver's reCAPTCHA v3 solve, through the facade: the task adapter's
      solve of its reCAPTCHA v3 task. */
  lemma RecaptchaV3OnTaskApi(s: Solver, o: RecaptchaV3Options, w: World)
    requires s.backend.TaskApi? && AntiCaptcha.SolveWellTyped(s.config, s.backend.host, AntiCaptcha.RecaptchaV3Task(o), w)
    ensures Captchas.RecaptchaV3(Methods(s.backend), s.config, o, w)
            == AntiCaptcha.Solve(s.config, s.backend.host, AntiCaptcha.RecaptchaV3Task(o), w)
  {
    AntiCaptcha.RecaptchaV3Forwards(s.backend.host, s.config, w, o);
  }

  /** A task-based solver's hCaptcha solve, through the facade: the task adapter's
      solve of its hCaptcha task. */
  lemma HCaptchaOnTaskApi(s: Solver, o: HCaptchaOptions, w: World)
    requires s.backend.TaskApi? && AntiCaptcha.SolveWellTyped(s.config, s.backend.host, AntiCaptcha.HCaptchaTask(o), w)
    ensures Captchas.HCaptcha(Methods(s.backend), s.config, o, w)
            == AntiCaptcha.Solve(s.config, s.backend.host, AntiCaptcha.HCaptchaTask(o), w)
  {
    AntiCaptcha.HCaptchaForwards(s.backend.host, s.config, w, o);
  }

  /** A task-based solver's FunCaptcha solve, through the facade: the task adapter's
      solve of its FunCaptcha task. */
  lemma FunCaptchaOnTaskApi(s: Solver, o: FunCaptchaOptions, w: World)
    requires s.backend.TaskApi? && AntiCaptcha.SolveWellTyped(s.config, s.backend.host, AntiCaptcha.FunCaptchaTask(o), w)
    ensures Captchas.FunCaptcha(Methods(s.backend), s.config, o, w)
            == AntiCaptcha.Solve(s.config, s.backend.host, AntiCaptcha.FunCaptchaTask(o), w)
  {
    AntiCaptcha.FunCaptchaForwards(s.backend.host, s.config, w, o);
  }

  /** A legacy solver's reCAPTCHA v2 solve, through the facade: the legacy adapter's
      solve of its reCAPTCHA v2 parameters. */
  lemma RecaptchaV2OnLegacyApi(s: Solver, o: RecaptchaV2Options, w: World)
    requires s.backend.LegacyApi?
    ensures Captchas.RecaptchaV2(Methods(s.backend), s.config, o, w)
            == TwoCaptcha.Solve(s.config, s.backend.host, TwoCaptcha.RecaptchaV2Params(o), w)
  {
  }

  /** A legacy solver's reCAPTCHA v3 solve, through the facade: the legacy adapter's
      solve of its reCAPTCHA v3 parameters. */
  lemma RecaptchaV3OnLegacyApi(s: Solver, o: RecaptchaV3Options, w: World)
    requires s.backend.LegacyApi?
    ensures Captchas.RecaptchaV3(Methods(s.backend), s.config, o, w)
            == TwoCaptcha.Solve(s.config, s.backend.host, TwoCaptcha.RecaptchaV3Params(o), w)
  {
  }

  /** A legacy solver's hCaptcha solve, through the facade: the legacy adapter's
      solve of its hCaptcha parameters. */
  lemma HCaptchaOnLegacyApi(s: Solver, o: HCaptchaOptions, w: World)
    requires s.backend.LegacyApi?
    ensures Captchas.HCaptcha(Methods(s.backend), s.config, o, w)
            == TwoCaptcha.Solve(s.config, s.backend.host, TwoCaptcha.HCaptchaParams(o), w)
  {
  }

  /** A legacy solver's FunCaptcha solve, through the facade: the legacy adapter's
      solve of its FunCaptcha parameters. */
  lemma FunCaptchaOnLegacyApi(s: Solver, o: FunCaptchaOptions, w: World)
    requires s.backend.LegacyApi?
    ensures Captchas.FunCaptcha(Methods(s.backend), s.config, o, w)
            == TwoCaptcha.Solve(s.config, s.backend.host, TwoCaptcha.FunCaptchaParams(o), w)
  {
  }
}

=== FILE: strings.dfy ===
/** The parts of Go's `strings` and `strconv` packages that the library relies
    on, over strings seen as sequences of characters. */
module StringOps {
  import opened Wrappers

  /** Bounds of Go's `int`, which is 64 bits wide on the targets the library builds for. */
  const IntMin: int := -0x8000_0000_0000_0000
  const IntMax: int := 0x7fff_ffff_ffff_ffff

  predicate IsPrefix(p: string, s: string) {
    |p| <= |s| && s[..|p|] == p
  }

  /** `sub` occurs in `s` starting at index `i`. */
  ghost predicate OccursAt(s: string, sub: string, i: int) {
    0 <= i && i + |sub| <= |s| && s[i..i + |sub|] == sub
  }

  /** strings.Contains: `sub` occurs somewhere in `s` (the empty string occurs everywhere). */
  function Contains(s: string, sub: string): bool
    decreases |s|
  {
    IsPrefix(sub, s) || (|s| > 0 && Contains(s[1..], sub))
  }

  /** Contains agrees with its definition by occurrences. */
  lemma {:induction false} ContainsIff(s: string, sub: string)
    ensures Contains(s, sub) <==> exists i :: OccursAt(s, sub, i)
    decreases |s|
  {
    if IsPrefix(sub, s) {
      assert OccursAt(s, sub, 0);
    } else if |s| > 0 {
      ContainsIff(s[1..], sub);
      forall j | 0 <= j
        ensures OccursAt(s, sub, j + 1) <==> OccursAt(s[1..], sub, j)
      {
        if j + 1 + |sub| <= |s| {
          assert s[1..][j..j + |sub|] == s[j + 1..j + 1 + |sub|];
        }
      }
      forall i | 1 <= i
        ensures OccursAt(s, sub, i) <==> OccursAt(s[1..], sub, i - 1)
      {
        if i + |sub| <= |s| {
          assert s[1..][i - 1..i - 1 + |sub|] == s[i..i + |sub|];
        }
      }
    }
  }

  /** A one-character needle is contained exactly when the character is. */
  lemma ContainsChar(s: string, c: char)
    ensures Contains(s, [c]) <==> c in s
  {
    ContainsIff(s, [c]);
    if c in s {
      var i :| 0 <= i < |s| && s[i] == c;
      assert s[i..i + 1] == [c];
      assert OccursAt(s, [c], i);
    }
    if Contains(s, [c]) {
      var i :| OccursAt(s, [c], i);
      assert s[i] == s[i..i + 1][0];
    }
  }

  /** A needle holding a character the haystack lacks cannot be contained. */
  lemma NotContainedWithout(s: string, sub: string, c: char)
    requires c in sub && c !in s
    ensures !Contains(s, sub)
  {
    ContainsIff(s, sub);
    var k :| 0 <= k < |sub| && sub[k] == c;
    forall i
      ensures !OccursAt(s, sub, i)
    {
      if 0 <= i && i + |sub| <= |s| {
        assert s[i..i + |sub|][k] == s[i + k];
      }
    }
  }

  /** Text that cannot start an occurrence of `sub` does not change whether `sub` occurs. */
  lemma {:induction false} ContainsPastPrefix(p: string, s: string, sub: string)
    requires |sub| > 0 && sub[0] !in p
    ensures Contains(p + s, sub) == Contains(s, sub)
    decreases |p|
  {
    if |p| > 0 {
      if |sub| <= |p + s| {
        assert (p + s)[..|sub|][0] == p[0];
      }
      assert !IsPrefix(sub, p + s);
      assert (p + s)[1..] == p[1..] + s;
      ContainsPastPrefix(p[1..], s, sub);
    } else {
      assert p + s == s;
    }
  }

  /** A needle placed inside a string is contained in it. */
  lemma ContainsInfix(p: string, sub: string, q: string)
    ensures Contains(p + sub + q, sub)
  {
    var s := p + sub + q;
    assert s[|p|..|p| + |sub|] == sub;
    assert OccursAt(s, sub, |p|);
    ContainsIff(s, sub);
  }

  /** strings.Count with a one-character separator: the occurrences of `c` in `s`. */
  function Count(s: string, c: char): (n: nat)
    ensures n == multiset(s)[c]
    decreases |s|
  {
    if |s| == 0 then 0
    else
      assert s == [s[0]] + s[1..];
      (if s[0] == c then 1 else 0) + Count(s[1..], c)
  }

  /** strings.ReplaceAll(s, string(c), ""): `s` with every `c` removed. */
  function RemoveAll(s: string, c: char): (r: string)
    ensures multiset(r) == multiset(s)[c := 0]
    decreases |s|
  {
    if |s| == 0 then []
    else
      assert s == [s[0]] + s[1..];
      (if s[0] == c then [] else [s[0]]) + RemoveAll(s[1..], c)
  }

  /** Removing a character distributes over concatenation. */
  lemma {:induction false} RemoveAllAppend(a: string, b: string, c: char)
    ensures RemoveAll(a + b, c) == RemoveAll(a, c) + RemoveAll(b, c)
    decreases |a|
  {
    if |a| > 0 {
      assert (a + b)[1..] == a[1..] + b;
      RemoveAllAppend(a[1..], b, c);
    } else {
      assert a + b == b;
    }
  }

  /** A string without `c` is left alone by RemoveAll. */
  lemma {:induction false} RemoveAllAbsent(s: string, c: char)
    requires c !in s
    ensures RemoveAll(s, c) == s
    decreases |s|
  {
    if |s| > 0 {
      RemoveAllAbsent(s[1..], c);
      assert s == [s[0]] + s[1..];
    }
  }

  /** RemoveAll on a single character. */
  lemma RemoveAllOne(c: char, d: char)
    ensures RemoveAll([c], d) == if c == d then [] else [c]
  {
  }

  /** Removing `c` also removes one `c` placed between two strings. */
  lemma DropChar(x: string, c: char, y: string)
    ensures RemoveAll(x + [c] + y, c) == RemoveAll(x + y, c)
  {
    RemoveAllAppend(x + [c], y, c);
    RemoveAllAppend(x, [c], c);
    RemoveAllAppend(x, y, c);
    RemoveAllOne(c, c);
    assert RemoveAll(x, c) + [] == RemoveAll(x, c);
  }

  /** Removing another character keeps `c` where it stands. */
  lemma KeepChar(x: string, c: char, d: char, y: string)
    requires c != d
    ensures RemoveAll(x + [c] + y, d) == RemoveAll(x, d) + [c] + RemoveAll(y, d)
  {
    RemoveAllAppend(x + [c], y, d);
    RemoveAllAppend(x, [c], d);
    RemoveAllOne(c, d);
  }

  function LowerChar(c: char): char {
    if 'A' <= c <= 'Z' then (c as int + 32) as char else c
  }

  function UpperChar(c: char): char {
    if 'a' <= c <= 'z' then (c as int - 32) as char else c
  }

  /** strings.ToLower, restricted to ASCII letters. */
  function ToLower(s: string): (r: string)
    ensures |r| == |s|
    ensures forall i :: 0 <= i < |s| ==> r[i] == LowerChar(s[i])
  {
    seq(|s|, i requires 0 <= i < |s| => LowerChar(s[i]))
  }

  /** strings.ToUpper, restricted to ASCII letters. */
  function ToUpper(s: string): (r: string)
    ensures |r| == |s|
    ensures forall i :: 0 <= i < |s| ==> r[i] == UpperChar(s[i])
  {
    seq(|s|, i requires 0 <= i < |s| => UpperChar(s[i]))
  }

  /** Lower-casing forgets the case the input was written in. */
  lemma ToLowerIgnoresCase(s: string)
    ensures ToLower(ToUpper(s)) == ToLower(s)
  {
    var a, b := ToLower(ToUpper(s)), ToLower(s);
    forall i | 0 <= i < |s|
      ensures a[i] == b[i]
    {
      assert a[i] == LowerChar(UpperChar(s[i]));
    }
  }

  lemma ToLowerAppend(a: string, b: string)
    ensures ToLower(a + b) == ToLower(a) + ToLower(b)
  {
    assert ToLower(a + b) == ToLower(a) + ToLower(b);
  }

  /** Lower-casing a string that is already lower case changes nothing. */
  lemma ToLowerIdempotent(s: string)
    ensures ToLower(ToLower(s)) == ToLower(s)
  {
  }

  /** unicode.IsSpace, which strings.TrimSpace uses. */
  predicate IsSpace(c: char) {
    || c == ' ' || c == '\t' || c == '\n' || c == '\U{000B}' || c == '\U{000C}' || c == '\r'
    || c == '\U{0085}' || c == '\U{00A0}' || c == '\U{1680}'
    || ('\U{2000}' <= c <= '\U{200A}')
    || c == '\U{2028}' || c == '\U{2029}' || c == '\U{202F}' || c == '\U{205F}' || c == '\U{3000}'
  }

  predicate AllSpace(s: string) {
    forall i :: 0 <= i < |s| ==> IsSpace(s[i])
  }

  /** Drops leading white space: the result is the suffix of `s` that starts at its first non-space. */
  function TrimLeft(s: string): (r: string)
    ensures |r| <= |s| && r == s[|s| - |r|..]
    ensures AllSpace(s[..|s| - |r|])
    ensures |r| > 0 ==> !IsSpace(r[0])
    decreases |s|
  {
    if |s| > 0 && IsSpace(s[0]) then TrimLeft(s[1..]) else s
  }

  /** Drops trailing white space: the result is the prefix of `s` that ends at its last non-space. */
  function TrimRight(s: string): (r: string)
    ensures |r| <= |s| && r == s[..|r|]
    ensures AllSpace(s[|r|..])
    ensures |r| > 0 ==> !IsSpace(r[|r| - 1])
    decreases |s|
  {
    if |s| > 0 && IsSpace(s[|s| - 1]) then TrimRight(s[..|s| - 1]) else s
  }

  /** strings.TrimSpace */
  function TrimSpace(s: string): string {
    TrimRight(TrimLeft(s))
  }

  lemma {:induction false} TrimLeftSkipsPadding(sp: string, x: string)
    requires AllSpace(sp)
    ensures TrimLeft(sp + x) == TrimLeft(x)
    decreases |sp|
  {
    if |sp| > 0 {
      assert (sp + x)[1..] == sp[1..] + x;
      TrimLeftSkipsPadding(sp[1..], x);
    } else {
      assert sp + x == x;
    }
  }

  lemma {:induction false} TrimRightSkipsPadding(x: string, sp: string)
    requires AllSpace(sp)
    ensures TrimRight(x + sp) == TrimRight(x)
    decreases |sp|
  {
    if |sp| > 0 {
      var s := x + sp;
      assert s[..|s| - 1] == x + sp[..|sp| - 1];
      TrimRightSkipsPadding(x, sp[..|sp| - 1]);
    } else {
      assert x + sp == x;
    }
  }

  /** Trailing padding survives TrimLeft unless the whole string is white space. */
  lemma {:induction false} TrimLeftKeepsTail(x: string, sp: string)
    requires AllSpace(sp)
    ensures TrimLeft(x + sp) == (if AllSpace(x) then [] else TrimLeft(x) + sp)
    decreases |x|
  {
    if |x| == 0 {
      assert x + sp == sp;
      TrimLeftSkipsPadding(sp, []);
      assert sp + [] == sp;
    } else if IsSpace(x[0]) {
      assert (x + sp)[1..] == x[1..] + sp;
      TrimLeftKeepsTail(x[1..], sp);
      if AllSpace(x[1..]) {
        assert AllSpace(x);
      } else {
        assert !AllSpace(x);
      }
    } else {
      assert !AllSpace(x);
    }
  }

  /** White space around a string does not change what TrimSpace makes of it. */
  lemma TrimSpaceIgnoresPadding(sp: string, x: string, sp2: string)
    requires AllSpace(sp) && AllSpace(sp2)
    ensures TrimSpace(sp + x + sp2) == TrimSpace(x)
  {
    assert sp + x + sp2 == sp + (x + sp2);
    TrimLeftSkipsPadding(sp, x + sp2);
    assert TrimLeft(sp + x + sp2) == TrimLeft(x + sp2);
    TrimLeftKeepsTail(x, sp2);
    TrimLeftKeepsTail(x, []);
    assert x + [] == x;
    if AllSpace(x) {
      assert TrimLeft(x + sp2) == [] == TrimLeft(x);
    } else {
      assert TrimLeft(x + sp2) == TrimLeft(x) + sp2;
      TrimRightSkipsPadding(TrimLeft(x), sp2);
    }
  }

  /** Lower-casing leaves white space alone. */
  lemma ToLowerKeepsSpace(sp: string)
    requires AllSpace(sp)
    ensures ToLower(sp) == sp && AllSpace(ToLower(sp))
  {
  }

  /** strings.TrimPrefix */
  function TrimPrefix(s: string, p: string): (r: string)
    ensures IsPrefix(p, s) ==> p + r == s
    ensures !IsPrefix(p, s) ==> r == s
  {
    if IsPrefix(p, s) then s[|p|..] else s
  }

  /** The index of the first `c` in `s`. */
  function IndexOf(s: string, c: char): (r: Option<nat>)
    ensures r.None? <==> c !in s
    ensures r.Some? ==> r.value < |s| && s[r.value] == c && c !in s[..r.value]
    decreases |s|
  {
    if |s| == 0 then None
    else if s[0] == c then Some(0)
    else
      match IndexOf(s[1..], c)
      case None => None
      case Some(i) =>
        assert s[..i + 1] == [s[0]] + s[1..][..i];
        Some(i + 1)
  }

  /** strings.Split(s, string(c))[1]: the field between the first and the second `c`
      (or the end of `s` when there is no second one). */
  function SecondField(s: string, c: char): (r: string)
    requires c in s
    ensures c !in r
  {
    var i := IndexOf(s, c).value;
    var rest := s[i + 1..];
    match IndexOf(rest, c)
    case None => rest
    case Some(j) => rest[..j]
  }

  /** The second field of `p + [c] + f` (with `c` in neither part) is `f`. */
  lemma SecondFieldOf(p: string, c: char, f: string, q: string)
    requires c !in p && c !in f
    ensures SecondField(p + [c] + f, c) == f
    ensures SecondField(p + [c] + f + [c] + q, c) == f
  {
    var s := p + [c] + f;
    assert s[|p|] == c;
    assert s[..|p|] == p;
    assert IndexOf(s, c) == Some(|p|);
    assert s[|p| + 1..] == f;
    var t := p + [c] + f + [c] + q;
    assert t[|p|] == c;
    assert t[..|p|] == p;
    assert IndexOf(t, c) == Some(|p|);
    var rest := t[|p| + 1..];
    assert rest == f + [c] + q;
    assert rest[|f|] == c && rest[..|f|] == f;
    assert IndexOf(rest, c) == Some(|f|);
  }

  predicate IsDigit(c: char) {
    '0' <= c <= '9'
  }

  predicate AllDigits(s: string) {
    forall i :: 0 <= i < |s| ==> IsDigit(s[i])
  }

  function DigitChar(d: int): char
    requires 0 <= d < 10
  {
    ('0' as int + d) as char
  }

  /** The number a run of decimal digits spells, most significant first. */
  function DigitsValue(s: string): nat
    requires AllDigits(s)
    decreases |s|
  {
    if |s| == 0 then 0 else DigitsValue(s[..|s| - 1]) * 10 + (s[|s| - 1] as int - '0' as int)
  }

  /** The decimal digits of `n`, without leading zeros. */
  function Digits(n: nat): (r: string)
    ensures 1 <= |r| && AllDigits(r)
    decreases n
  {
    if n < 10 then [DigitChar(n)] else Digits(n / 10) + [DigitChar(n % 10)]
  }

  /** strconv.Itoa */
  function Itoa(n: int): (r: string)
    ensures 1 <= |r|
    ensures forall i :: 0 <= i < |r| ==> IsDigit(r[i]) || r[i] == '-'
  {
    if n < 0 then "-" + Digits(-n) else Digits(n)
  }

  /** strconv.Atoi: an optional sign and at least one decimal digit, whose value fits Go's int. */
  function Atoi(s: string): (r: Option<int>)
    ensures r.Some? ==> IntMin <= r.value <= IntMax
    ensures r.Some? ==> 1 <= |s| && (AllDigits(s) || ((s[0] == '-' || s[0] == '+') && AllDigits(s[1..])))
  {
    if |s| == 0 then None
    else
      var digits := if s[0] == '-' || s[0] == '+' then s[1..] else s;
      if |digits| == 0 || !AllDigits(digits) then None
      else
        var v: int := if s[0] == '-' then -(DigitsValue(digits) as int) else DigitsValue(digits);
        if IntMin <= v <= IntMax then Some(v) else None
  }

  lemma {:induction false} DigitsValueOfDigits(n: nat)
    ensures DigitsValue(Digits(n)) == n
    decreases n
  {
    var ds := Digits(n);
    if n >= 10 {
      assert ds[..|ds| - 1] == Digits(n / 10);
      DigitsValueOfDigits(n / 10);
    }
  }

  /** Atoi reads back exactly what Itoa writes, for every value of Go's int. */
  lemma AtoiItoa(n: int)
    requires IntMin <= n <= IntMax
    ensures Atoi(Itoa(n)) == Some(n)
  {
    if n < 0 {
      DigitsValueOfDigits(-n);
      assert ("-" + Digits(-n))[1..] == Digits(-n);
    } else {
      DigitsValueOfDigits(n);
    }
  }
}

=== FILE: tcmethods.dfy ===
/** tcmethods.go: the adapter for the legacy 2captcha API, which takes its
    parameters in the query string and answers in plain text (`OK|<value>`, or
    an error code). */
module TwoCaptcha {
  import opened Wrappers
  import opened StringOps
  import opened Json
  import opened Common
  import opened Proxies
  import opened Captchas

  /** The identification value sent with every submission. */
  const SoftId: int := 3413

  // ---------------------------------------------------------------- create task

  /** The in.php request: the task's parameters with the API key and soft_id
      written over them (the Go code stores both into the caller's map). */
  function SubmitRequest(c: Config, preferred: string, params: Object): (r: Request)
    ensures r.url == Domain(preferred, c.forcedDomain) + "/in.php"
    ensures r.params.Keys == params.Keys + {"key", "soft_id"}
    ensures r.params["key"] == Str(c.apiKey) && r.params["soft_id"] == Int(3413)
    ensures forall k :: k in params && k != "key" && k != "soft_id" ==> r.params[k] == params[k]
  {
    Request(Domain(preferred, c.forcedDomain) + "/in.php", params["key" := Str(c.apiKey)]["soft_id" := Int(SoftId)])
  }

  /** What createTask makes of the in.php answer: a transport failure as is; a
      body without `|` is the backend's error text; otherwise the field after the
      first `|` must be a decimal integer. */
  function ParseTaskId(reply: Reply<string>): (r: Result<int, Error>)
    ensures reply.Unreachable? ==> r == Failure(Transport(reply.reason))
    ensures reply.Delivered? && '|' !in reply.body ==> r == Failure(Remote(reply.body))
    ensures reply.Delivered? && '|' in reply.body ==>
              var field := SecondField(reply.body, '|');
              && (Atoi(field).None? ==> r == Failure(BadNumber(field)))
              && (Atoi(field).Some? ==> r == Success(Atoi(field).value))
  {
    match reply
    case Unreachable(why) => Failure(Transport(why))
    case Delivered(body) =>
      ContainsChar(body, '|');
      if !Contains(body, "|") then Failure(Remote(body))
      else
        var field := SecondField(body, '|');
        match Atoi(field)
        case None => Failure(BadNumber(field))
        case Some(id) => Success(id)
  }

  /** An id the backend writes in decimal after `OK|` reads back as that id,
      whatever follows a second `|`. */
  lemma TaskIdReadsBack(id: int, rest: string)
    requires IntMin <= id <= IntMax
    ensures ParseTaskId(Delivered("OK|" + Itoa(id))) == Success(id)
    ensures ParseTaskId(Delivered("OK|" + Itoa(id) + "|" + rest)) == Success(id)
  {
    var n := Itoa(id);
    assert '|' !in n by {
      forall i | 0 <= i < |n| ensures n[i] != '|' {
        assert IsDigit(n[i]) || n[i] == '-';
      }
    }
    SecondFieldOf("OK", '|', n, rest);
    assert "OK" + ['|'] + n == "OK|" + n;
    assert "OK" + ['|'] + n + ['|'] + rest == "OK|" + n + "|" + rest;
    assert ("OK|" + n)[2] == '|';
    AtoiItoa(id);
  }

  // ---------------------------------------------------------------- poll

  /** The res.php request every round of the loop sends for task `taskId`. */
  function PollRequest(c: Config, preferred: string, taskId: int): (r: Request)
    ensures r.url == Domain(preferred, c.forcedDomain) + "/res.php"
    ensures r.params.Keys == {"key", "action", "id"}
    ensures r.params["key"] == Str(c.apiKey) && r.params["action"] == Str("get") && r.params["id"] == Int(taskId)
  {
    Request(Domain(preferred, c.forcedDomain) + "/res.php", map["key" := Str(c.apiKey), "action" := Str("get"), "id" := Int(taskId)])
  }

  /** The replies the poll rounds get when each asks about task `taskId`. */
  function PollReplies(c: Config, preferred: string, taskId: int, w: World): seq<Reply<string>> {
    Answers(w.text.polls, PollRequest(c, preferred, taskId))
  }

  /** The id a poll asks about reaches the query string as the task id's decimal
      text, and the poll is told apart from a balance request by its action. */
  lemma PollRequestNamesTask(c: Config, preferred: string, taskId: int, fixed3: real -> string)
    requires IntMin <= taskId <= IntMax
    ensures var r := PollRequest(c, preferred, taskId);
            && Atoi(Render(r.params["id"], fixed3)) == Some(taskId)
            && r != BalanceRequest(c, preferred)
  {
    var r := PollRequest(c, preferred, taskId);
    assert r.params["action"] != BalanceRequest(c, preferred).params["action"];
  }

  /** One round of getResponse. A transport failure ends the loop (unlike the
      task-based adapter, which retries); a body mentioning CAPCHA_NOT_READY goes
      round again; a body without `OK|` is the backend's error text; otherwise
      the answer is the body with a leading `OK|` removed. An `OK|` that is not
      at the front is found but not removed, so the whole body is the answer. */
  function PollStep(taskId: int, reply: Reply<string>): (s: Step)
    ensures reply.Unreachable? ==> s == Abort(Transport(reply.reason))
    ensures s.Continue? <==> reply.Delivered? && Contains(reply.body, "CAPCHA_NOT_READY")
    ensures reply.Delivered? && !Contains(reply.body, "CAPCHA_NOT_READY") && !Contains(reply.body, "OK|") ==>
              s == Abort(Remote(reply.body))
    ensures s.Finish? <==>
              reply.Delivered? && !Contains(reply.body, "CAPCHA_NOT_READY") && Contains(reply.body, "OK|")
    ensures s.Finish? ==>
              && s.solution.taskId == taskId && s.solution.speed == 0
              && s.solution.cost == "" && s.solution.ip == "" && s.solution.cookies.None?
              && (IsPrefix("OK|", reply.body) ==> "OK|" + s.solution.text == reply.body)
              && (!IsPrefix("OK|", reply.body) ==> s.solution.text == reply.body)
  {
    match reply
    case Unreachable(why) => Abort(Transport(why))
    case Delivered(body) =>
      if Contains(body, "CAPCHA_NOT_READY") then Continue
      else if !Contains(body, "OK|") then Abort(Remote(body))
      else Finish(Fresh(TrimPrefix(body, "OK|"), taskId, "", ""))
  }

  /** An answer the backend writes after `OK|` reads back as that answer,
      unless the answer itself mentions CAPCHA_NOT_READY. */
  lemma AnswerReadsBack(taskId: int, answer: string)
    requires !Contains(answer, "CAPCHA_NOT_READY")
    ensures PollStep(taskId, Delivered("OK|" + answer)) == Finish(Fresh(answer, taskId, "", ""))
  {
    var body := "OK|" + answer;
    ContainsPastPrefix("OK|", answer, "CAPCHA_NOT_READY");
    ContainsInfix("", "OK|", answer);
    assert "" + "OK|" + answer == body;
    assert body[..3] == "OK|";
  }

  /** A body that merely mentions `OK|` after other text is taken whole as the answer. */
  lemma EmbeddedOkIsKept(taskId: int, p: string, q: string)
    requires !IsPrefix("OK|", p + "OK|" + q)
    requires !Contains(p + "OK|" + q, "CAPCHA_NOT_READY")
    ensures PollStep(taskId, Delivered(p + "OK|" + q)) == Finish(Fresh(p + "OK|" + q, taskId, "", ""))
  {
    ContainsInfix(p, "OK|", q);
  }

  /** For instance, a token that merely follows other text is not trimmed. */
  lemma EmbeddedOkExample(taskId: int)
    ensures PollStep(taskId, Delivered("xOK|03AC")) == Finish(Fresh("xOK|03AC", taskId, "", ""))
  {
    var p, q := "x", "03AC";
    var body := "xOK|03AC";
    assert p + "OK|" + q == body;
    assert body[..3][0] == 'x';
    ContainsPastPrefix("xOK|03A", "C", "CAPCHA_NOT_READY");
    assert !Contains("C", "CAPCHA_NOT_READY");
    assert "xOK|03A" + "C" == "xOK|03AC";
    EmbeddedOkIsKept(taskId, p, q);
  }

  /** getResponse's loop over a finite script of replies. It is still polling
      exactly when every reply is a not-ready notice; a solution it settles on is
      for the polled task. */
  function AwaitResult(taskId: int, replies: seq<Reply<string>>): (r: Outcome)
    ensures r.Polling? <==> forall i :: 0 <= i < |replies| ==> PollStep(taskId, replies[i]).Continue?
    ensures r.Solved? ==> r.solution.taskId == taskId && r.solution.speed == 0
    decreases |replies|
  {
    if |replies| == 0 then Polling
    else
      var s := PollStep(taskId, replies[0]);
      if s.Continue? then
        assert forall j :: 0 <= j < |replies[1..]| ==> replies[1..][j] == replies[j + 1];
        AwaitResult(taskId, replies[1..])
      else
        Settle(s)
  }

  /** Index `k` holds the first reply that ends the loop. */
  ghost predicate FirstStop(taskId: int, replies: seq<Reply<string>>, k: int) {
    && 0 <= k < |replies| && !PollStep(taskId, replies[k]).Continue?
    && forall j :: 0 <= j < k ==> PollStep(taskId, replies[j]).Continue?
  }

  /** The loop's outcome is decided by the first reply that is not a not-ready notice. */
  lemma {:induction false} AwaitResultIsFirstStop(taskId: int, replies: seq<Reply<string>>, k: int)
    requires FirstStop(taskId, replies, k)
    ensures AwaitResult(taskId, replies) == Settle(PollStep(taskId, replies[k]))
    decreases k
  {
    if k > 0 {
      assert PollStep(taskId, replies[0]).Continue?;
      assert FirstStop(taskId, replies[1..], k - 1) by {
        assert forall j :: 0 <= j < k - 1 ==> replies[1..][j] == replies[j + 1];
      }
      AwaitResultIsFirstStop(taskId, replies[1..], k - 1);
      assert replies[1..][k - 1] == replies[k];
    }
  }

  /** A transport failure while polling ends the solve with that failure. */
  lemma TransportFailureEndsPolling(taskId: int, reason: string, rest: seq<Reply<string>>)
    ensures AwaitResult(taskId, [Unreachable(reason)] + rest) == Failed(Transport(reason))
  {
    assert ([Unreachable(reason)] + rest)[0] == Unreachable(reason);
  }

  // ---------------------------------------------------------------- create and wait

  /** createResponse: submit, then poll, every round asking res.php about the
      submitted id. A failed submission is returned as it is and no poll is
      read; a solution is the loop's, with the elapsed time. */
  function Solve(c: Config, preferred: string, params: Object, w: World): (r: Outcome)
    ensures var created := ParseTaskId(w.text.submit(SubmitRequest(c, preferred, params)));
            && (created.Failure? ==> r == Failed(created.error))
            && (r.Solved? ==> created.Success? && r.solution.taskId == created.value && r.solution.speed == w.elapsedMs)
            && (created.Success? && !r.Solved? ==> r == AwaitResult(created.value, PollReplies(c, preferred, created.value, w)))
            && (r.Solved? ==> created.Success? && AwaitResult(created.value, PollReplies(c, preferred, created.value, w)) == Solved(r.solution.(speed := 0)))
  {
    match ParseTaskId(w.text.submit(SubmitRequest(c, preferred, params)))
    case Failure(e) => Failed(e)
    case Success(id) =>
      match AwaitResult(id, PollReplies(c, preferred, id, w))
      case Solved(sol) => Solved(sol.(speed := w.elapsedMs))
      case other => other
  }

  /** The polls ask about the submitted task and nothing else: a poll script
      that answers the res.php request for the submitted id as the world's does,
      round by round, gives the same outcome whatever it answers to other requests. */
  lemma PollsAskForSubmittedTask(c: Config, preferred: string, params: Object, w: World, polls: seq<Request -> Reply<string>>)
    requires var created := ParseTaskId(w.text.submit(SubmitRequest(c, preferred, params)));
             created.Success? ==>
               && |polls| == |w.text.polls|
               && forall i :: 0 <= i < |polls| ==>
                    polls[i](PollRequest(c, preferred, created.value)) == w.text.polls[i](PollRequest(c, preferred, created.value))
    ensures Solve(c, preferred, params, w.(text := w.text.(polls := polls))) == Solve(c, preferred, params, w)
  {
    var w2 := w.(text := w.text.(polls := polls));
    var created := ParseTaskId(w.text.submit(SubmitRequest(c, preferred, params)));
    if created.Success? {
      assert PollReplies(c, preferred, created.value, w2) == PollReplies(c, preferred, created.value, w);
    }
  }

  // ---------------------------------------------------------------- balance

  /** The balance request: res.php with the API key and action getbalance, nothing else. */
  function BalanceRequest(c: Config, preferred: string): (r: Request)
    ensures r.url == Domain(preferred, c.forcedDomain) + "/res.php"
    ensures r.params.Keys == {"key", "action"}
    ensures r.params["key"] == Str(c.apiKey) && r.params["action"] == Str("getbalance")
  {
    Request(Domain(preferred, c.forcedDomain) + "/res.php", map["key" := Str(c.apiKey), "action" := Str("getbalance")])
  }

  /** GetBalance: a transport failure, or the body read as a float; a body that
      does not parse is returned as the error text. */
  function GetBalance(preferred: string, c: Config, w: World): (r: Result<real, Error>)
    ensures var reply := w.text.balance(BalanceRequest(c, preferred));
            && (reply.Unreachable? ==> r == Failure(Transport(reply.reason)))
            && (reply.Delivered? && w.parseFloat(reply.body).None? ==> r == Failure(Remote(reply.body)))
            && (r.Success? <==> reply.Delivered? && w.parseFloat(reply.body).Some?)
            && (r.Success? ==> r.value == w.parseFloat(reply.body).value)
  {
    match w.text.balance(BalanceRequest(c, preferred))
    case Unreachable(why) => Failure(Transport(why))
    case Delivered(body) =>
      match w.parseFloat(body)
      case None => Failure(Remote(body))
      case Some(x) => Success(x)
  }

  // ---------------------------------------------------------------- parameters

  /** Two parameter groups with no key in common, sent together. */
  function Merge(a: Object, b: Object): (r: Object)
    requires a.Keys !! b.Keys
    ensures r.Keys == a.Keys + b.Keys
    ensures forall k :: k in a ==> r[k] == a[k]
    ensures forall k :: k in b ==> r[k] == b[k]
  {
    a + b
  }

  /** The parameters describing the caller's client, shared by the reCAPTCHA v2,
      hCaptcha and FunCaptcha tasks: the user agent when one is given, and a proxy
      as its rendering and its type in upper case. */
  function ClientParams(userAgent: string, p: Option<Proxy>): (r: Object)
    ensures r.Keys <= {"userAgent", "proxy", "proxytype"}
    ensures ("userAgent" in r <==> userAgent != "") && ("proxy" in r <==> p.Some?) && ("proxytype" in r <==> p.Some?)
    ensures userAgent != "" ==> r["userAgent"] == Str(userAgent)
    ensures p.Some? ==> r["proxy"] == Str(ProxyString(p)) && r["proxytype"] == Str(ToUpper(p.value.pType))
  {
    var agent: Object := if userAgent != "" then map["userAgent" := Str(userAgent)] else map[];
    if p.Some? then agent["proxy" := Str(ProxyString(p))]["proxytype" := Str(ToUpper(p.value.pType))] else agent
  }

  /** The proxy 2captcha is told about reads back: its type, lower-cased again,
      is the stored type (https stays https), and the port is the text after the
      rendering's last colon. */
  lemma ProxyReadsBack(userAgent: string, p: Proxy)
    requires KnownType(p.pType)
    requires IntMin <= p.port <= IntMax
    ensures var r := ClientParams(userAgent, Some(p));
            var s := r["proxy"].s;
            var n := |Itoa(p.port)|;
            && r["proxytype"].Str? && ToLower(r["proxytype"].s) == p.pType
            && n < |s| && s[|s| - n - 1] == ':' && Atoi(s[|s| - n..]) == Some(p.port)
  {
    ToLowerIgnoresCase(p.pType);
    NormalizeKeepsLowerWord(p.pType);
    ProxyStringReadsBack(p);
  }

  /** The reCAPTCHA v2 parameters of its own: page, key, and the invisible flag,
      data-s and cookies when given. */
  function RecaptchaV2Own(o: RecaptchaV2Options): (r: Object)
    ensures r.Keys <= {"method", "googlekey", "pageurl", "invisible", "data-s", "cookies"}
    ensures "method" in r && "googlekey" in r && "pageurl" in r
    ensures ("invisible" in r <==> o.invisible) && ("data-s" in r <==> o.dataS != "") && ("cookies" in r <==> |o.cookies| > 0)
    ensures r["method"] == Str("userrecaptcha") && r["googlekey"] == Str(o.siteKey) && r["pageurl"] == Str(o.pageUrl)
    ensures o.invisible ==> r["invisible"] == Int(1)
    ensures o.dataS != "" ==> r["data-s"] == Str(o.dataS)
    ensures |o.cookies| > 0 ==> r["cookies"] == Str(CookiesToString(o.cookies))
  {
    var base := map["method" := Str("userrecaptcha"), "googlekey" := Str(o.siteKey), "pageurl" := Str(o.pageUrl)];
    var p1 := if o.invisible then base["invisible" := Int(1)] else base;
    var p2 := if o.dataS != "" then p1["data-s" := Str(o.dataS)] else p1;
    if |o.cookies| > 0 then p2["cookies" := Str(CookiesToString(o.cookies))] else p2
  }

  /** The reCAPTCHA v2 parameters: its own and the client's. The enterprise payload is not sent. */
  function RecaptchaV2Params(o: RecaptchaV2Options): (r: Object)
    ensures r.Keys == RecaptchaV2Own(o).Keys + ClientParams(o.userAgent, o.proxy).Keys
    ensures forall k :: k in RecaptchaV2Own(o) ==> r[k] == RecaptchaV2Own(o)[k]
    ensures forall k :: k in ClientParams(o.userAgent, o.proxy) ==> r[k] == ClientParams(o.userAgent, o.proxy)[k]
  {
    var own, client := RecaptchaV2Own(o), ClientParams(o.userAgent, o.proxy);
    assert "userAgent" !in own && "proxy" !in own && "proxytype" !in own;
    Merge(own, client)
  }

  /** The hCaptcha parameters of its own: of the enterprise payload only the
      RQData is sent, as `data`. */
  function HCaptchaOwn(o: HCaptchaOptions): (r: Object)
    ensures r.Keys <= {"method", "sitekey", "pageurl", "invisible", "data"}
    ensures "method" in r && "sitekey" in r && "pageurl" in r
    ensures "invisible" in r <==> o.invisible
    ensures "data" in r <==> o.enterprisePayload.Some? && o.enterprisePayload.value.rqData != ""
    ensures r["method"] == Str("hcaptcha") && r["sitekey"] == Str(o.siteKey) && r["pageurl"] == Str(o.pageUrl)
    ensures o.invisible ==> r["invisible"] == Int(1)
    ensures "data" in r ==> r["data"] == Str(o.enterprisePayload.value.rqData)
  {
    var ep := o.enterprisePayload;
    var base := map["method" := Str("hcaptcha"), "sitekey" := Str(o.siteKey), "pageurl" := Str(o.pageUrl)];
    var p1 := if o.invisible then base["invisible" := Int(1)] else base;
    if ep.Some? && ep.value.rqData != "" then p1["data" := Str(ep.value.rqData)] else p1
  }

  /** The hCaptcha parameters: its own and the client's. */
  function HCaptchaParams(o: HCaptchaOptions): (r: Object)
    ensures r.Keys == HCaptchaOwn(o).Keys + ClientParams(o.userAgent, o.proxy).Keys
    ensures forall k :: k in HCaptchaOwn(o) ==> r[k] == HCaptchaOwn(o)[k]
    ensures forall k :: k in ClientParams(o.userAgent, o.proxy) ==> r[k] == ClientParams(o.userAgent, o.proxy)[k]
  {
    var own, client := HCaptchaOwn(o), ClientParams(o.userAgent, o.proxy);
    assert "userAgent" !in own && "proxy" !in own && "proxytype" !in own;
    Merge(own, client)
  }

  /** The FunCaptcha parameters of its own: page, public key and the subdomain
      when given. The data blob is not sent. */
  function FunCaptchaOwn(o: FunCaptchaOptions): (r: Object)
    ensures r.Keys <= {"method", "publickey", "pageurl", "surl"}
    ensures "method" in r && "publickey" in r && "pageurl" in r
    ensures "surl" in r <==> o.subdomain != ""
    ensures r["method"] == Str("funcaptcha") && r["publickey"] == Str(o.publicKey) && r["pageurl"] == Str(o.pageUrl)
    ensures o.subdomain != "" ==> r["surl"] == Str(o.subdomain)
  {
    var base := map["method" := Str("funcaptcha"), "publickey" := Str(o.publicKey), "pageurl" := Str(o.pageUrl)];
    if o.subdomain != "" then base["surl" := Str(o.subdomain)] else base
  }

  /** The FunCaptcha parameters: its own and the client's. */
  function FunCaptchaParams(o: FunCaptchaOptions): (r: Object)
    ensures r.Keys == FunCaptchaOwn(o).Keys + ClientParams(o.userAgent, o.proxy).Keys
    ensures forall k :: k in FunCaptchaOwn(o) ==> r[k] == FunCaptchaOwn(o)[k]
    ensures forall k :: k in ClientParams(o.userAgent, o.proxy) ==> r[k] == ClientParams(o.userAgent, o.proxy)[k]
  {
    var own, client := FunCaptchaOwn(o), ClientParams(o.userAgent, o.proxy);
    assert "userAgent" !in own && "proxy" !in own && "proxytype" !in own;
    Merge(own, client)
  }

  /** The reCAPTCHA v3 parameters: action, minimum score and the enterprise flag
      only when they differ from their zero values. */
  function RecaptchaV3Params(o: RecaptchaV3Options): (r: Object)
    ensures r.Keys <= {"method", "version", "googlekey", "pageurl", "action", "min_score", "enterprise"}
    ensures "method" in r && "version" in r && "googlekey" in r && "pageurl" in r
    ensures ("action" in r <==> o.action != "") && ("min_score" in r <==> o.minScore != 0.0) && ("enterprise" in r <==> o.enterprise)
    ensures r["method"] == Str("userrecaptcha") && r["version"] == Str("v3")
    ensures r["googlekey"] == Str(o.siteKey) && r["pageurl"] == Str(o.pageUrl)
    ensures o.action != "" ==> r["action"] == Str(o.action)
    ensures o.minScore != 0.0 ==> r["min_score"] == Float(o.minScore)
    ensures o.enterprise ==> r["enterprise"] == Int(1)
  {
    var base := map["method" := Str("userrecaptcha"), "version" := Str("v3"), "googlekey" := Str(o.siteKey), "pageurl" := Str(o.pageUrl)];
    var p1 := if o.action != "" then base["action" := Str(o.action)] else base;
    var p2 := if o.minScore != 0.0 then p1["min_score" := Float(o.minScore)] else p1;
    if o.enterprise then p2["enterprise" := Int(1)] else p2
  }

  // ---------------------------------------------------------------- the method set

  /** twoCaptchaMethods: every capability is provided, each reading the solver's
      settings at call time. */
  function Methods(preferred: string): (m: SolveMethods)
    ensures m.getBalance.Some? && m.recaptchaV2.Some? && m.recaptchaV3.Some? && m.hCaptcha.Some? && m.funCaptcha.Some?
  {
    SolveMethods(
      Some((c: Config, w: World) => GetBalance(preferred, c, w)),
      Some((c: Config, o: RecaptchaV2Options, w: World) => Solve(c, preferred, RecaptchaV2Params(o), w)),
      Some((c: Config, o: RecaptchaV3Options, w: World) => Solve(c, preferred, RecaptchaV3Params(o), w)),
      Some((c: Config, o: HCaptchaOptions, w: World) => Solve(c, preferred, HCaptchaParams(o), w)),
      Some((c: Config, o: FunCaptchaOptions, w: World) => Solve(c, preferred, FunCaptchaParams(o), w)))
  }

  /** Through the Solver facade, each solve is one in.php-and-poll round of its
      own parameters, and the balance is the backend's getbalance. */
  lemma MethodsForward(preferred: string, c: Config, w: World, v2: RecaptchaV2Options)
    ensures var m := Methods(preferred);
            && Captchas.GetBalance(m, c, w) == GetBalance(preferred, c, w)
            && Captchas.RecaptchaV2(m, c, v2, w) == Solve(c, preferred, RecaptchaV2Params(v2), w)
  {
  }

  /** The other three solves, through the facade: reCAPTCHA v3, hCaptcha and
      FunCaptcha each submit their own parameters. */
  lemma MethodsForwardParams(preferred: string, c: Config, w: World, v3: RecaptchaV3Options, h: HCaptchaOptions, f: FunCaptchaOptions)
    ensures var m := Methods(preferred);
            && Captchas.RecaptchaV3(m, c, v3, w) == Solve(c, preferred, RecaptchaV3Params(v3), w)
            && Captchas.HCaptcha(m, c, h, w) == Solve(c, preferred, HCaptchaParams(h), w)
            && Captchas.FunCaptcha(m, c, f, w) == Solve(c, preferred, FunCaptchaParams(f), w)
  {
  }
}

=== FILE: wrappers.dfy ===
/** Option and Result: the failure-carrying values the model uses in place of
    Go's nil pointers and `(value, error)` pairs. */
module Wrappers {

  /** A value that may be absent, like a Go pointer that may be nil. */
  datatype Option<T> = None | Some(value: T)

  /** Either a value or the error a Go function would have returned beside it. */
  datatype Result<T, E> = Success(value: T) | Failure(error: E)
}
